=== FILE: README.md ===
# A Dafny model of the starter kit's authentication, authorisation and catalogue logic

This project models the backend's security and catalogue-consistency core. The backend is a Laravel API with a Next.js frontend. It is written as immutable datatypes and pure transition functions. The clock is an explicit `now` parameter, counted in whole seconds. The database tables are sequences or sets in memory.

- **One-time codes** (`VerificationCodes`, `CodeFormat`, `TwoFactor`). This covers:
  - the six-digit code generator;
  - the `verification_codes` table, as a sequence in insertion order, because `verifyCode` takes the first matching row;
  - issuing a code, which first deletes the older unused codes of the same user and purpose;
  - single-use verification;
  - the expiry sweep.
- **Login handshake** (`Auth`). `login`, `verify2FA` and `resend2FA` form a state machine over users, codes and Sanctum access tokens.
- **Role gate** (`RoleGate`, `Routes`, `ClientRoles`):
  - the `role:` middleware as an allow / 401 / 403 decision;
  - the route table as data;
  - the browser-side `checkUserRole` predicate.
- **Cache-aside layer** (`CacheAside`). `remember`, `forget` and `forgetMultiple` work over a map from key to (value, expiry). Prefixed keys and a default lifetime are modelled. A `Fault` says whether the backend answers, raises on every call, or raises on writes only.
- **Catalogue** (`ToolCatalog`, `TypesController`, `ToolsController`, `Backfill`):
  - tools, types and roles, with the two join tables as sets of pairs (they carry a unique index);
  - the cached type listing, whose `tools_count` is the larger of the legacy count and the many-to-many count;
  - the tool controller's filtered listing, `show`, `store` (attach), `update` (sync) and `destroy` (cascade);
  - the legacy-to-pivot backfill seeder.
- **Roles** (`RolesController`). Role creation, whose validation keeps names unique.
- **API address** (`ApiConfig`). The frontend's `getApiUrl` and `getApiEndpoint`, with the environment and the browser's hostname as parameters.

Several callers are parameters:

| parameter | stands for |
|---|---|
| `hashMatches` | `Hash::check` |
| `drawn` | the `random_int` draw |
| `isUrl` | the framework's `url` rule |
| `produced` | the cache producer's outcome |

The design invariant behind single use is `TwoFactor.SinglePending`: at most one unused code per (user, purpose). The invariant behind the listing's counts is `ToolCatalog.LegacyInPivot`: every tool's legacy type also has a row in the tool–type join table. The model proves that the operations keep these invariants, and it proves what they buy.

## Model

| member | source | states |
|---|---|---|
| VerificationCodes.MarkAsUsed | backend/app/Models/VerificationCode.php:44-47 | The row comes back used, with every other field unchanged, and it is invalid at every instant |
| VerificationCodes.UsedNeverValid | backend/app/Models/VerificationCode.php:36-39 | A used code is invalid whatever its expiry |
| VerificationCodes.ExpiryIsExclusive | backend/app/Models/VerificationCode.php:36-39 | An unused code is already invalid at the instant of expiry and still valid one second before it, because `isFuture` is strict |
| VerificationCodes.MarkAsUsedIdempotent | backend/app/Models/VerificationCode.php:44-47 | Marking a row used twice gives the same row as marking it once |
| CodeFormat.GenerateCode | backend/app/Services/TwoFactorService.php:15-18 | Every draw in [0, 999999] gives exactly six ASCII digits that parse back to the draw, so leading zeros are kept |
| CodeFormat.PadLeft | backend/app/Services/TwoFactorService.php:17 | Left padding: the result is the wider of the input and the width, the input is its suffix, and only pad characters precede it |
| CodeFormat.GenerateCodeInjective | backend/app/Services/TwoFactorService.php:15-18 | Two draws give the same code exactly when they are equal |
| CodeFormat.CodesAreOnto | backend/app/Services/TwoFactorService.php:15-18 | Every six-digit string is the code of a draw in range, so the codes are exactly the six-digit strings |
| CodeFormat.ParseDecimal | backend/app/Services/TwoFactorService.php:17 | The decimal text of a number parses back to the number |
| TwoFactor.DropPending | backend/app/Services/TwoFactorService.php:26-29 | The delete keeps exactly the rows not pending for the (user, purpose). That count drops to zero and every other count is unchanged |
| TwoFactor.SendVerificationCode | backend/app/Services/TwoFactorService.php:23-48 | The new code is unused, expires 600 s after `now`, has six digits that encode the draw, and is the last row. Afterwards exactly one code is pending for the (user, purpose). Rows not pending for it survive, no other row appears, other counts are unchanged, and the single-pending invariant is kept |
| TwoFactor.FirstMatchFrom | backend/app/Services/TwoFactorService.php:55-59 | The index `first()` picks is a matching row, and no earlier row matches; no result means no row matches |
| TwoFactor.VerifyCode | backend/app/Services/TwoFactorService.php:53-72 | Only the first unused row matching (user, code, type) decides: the call succeeds exactly when that row is still valid, and then exactly that row is marked used. On failure the table is unchanged, and with no valid matching row at all the call fails |
| TwoFactor.DropExpired | backend/app/Services/TwoFactorService.php:98-101 | The kept rows are exactly those expiring at or after `now`. The kept count plus the expired count is the table size, and pending counts can only fall |
| TwoFactor.CleanupExpiredCodes | backend/app/Services/TwoFactorService.php:98-101 | The sweep deletes exactly the rows that expired before `now`, used or not; rows expiring at `now` survive. The reported number is the number deleted, and the single-pending invariant is kept |
| TwoFactor.PendingUnique | backend/app/Services/TwoFactorService.php:26-29 | Under the invariant, two pending rows of one (user, purpose) are the same row |
| TwoFactor.VerifySucceedsIff | backend/app/Services/TwoFactorService.php:53-72 | Under the invariant, verification succeeds exactly when a valid matching code exists |
| TwoFactor.VerifyKeepsSinglePending | backend/app/Services/TwoFactorService.php:69-71 | Verification keeps the single-pending invariant |
| TwoFactor.NoReplay | backend/app/Services/TwoFactorService.php:53-72 | After a successful verification, the same submission fails at any later time |
| TwoFactor.ReplayWithoutInvariant | backend/app/Services/TwoFactorService.php:55-71 | Without the invariant, two identical unused rows let one code verify twice, so the invariant is needed |
| TwoFactor.ExpiredFirstMatchHidesLaterCode | backend/app/Services/TwoFactorService.php:55-67 | When the first matching row has expired, a later matching row that is still valid does not help: the call fails and changes nothing |
| TwoFactor.IssuedCodeVerifies | backend/app/Services/TwoFactorService.php:23-72 | A freshly issued code verifies at any time before its expiry |
| TwoFactor.ReissueRevokesOldCode | backend/app/Services/TwoFactorService.php:26-42 | After a re-issue, any other code for that (user, purpose) fails |
| Auth.ProfileOf | backend/app/Http/Controllers/Api/AuthController.php:83-90 | The profile carries the user's id, name and e-mail, the legacy role's name (null when there is none), and the many-to-many role names |
| Auth.Login | backend/app/Http/Controllers/Api/AuthController.php:22-59 | Every failure leaves the state unchanged, so no code is issued. An unknown e-mail or a wrong password gives the credentials error on `email`. The deactivation error comes only after the credentials match. Success happens exactly when the rules pass, the credentials match and the user is active. Success then gives `requires_2fa`, the user id and the e-mail. The only change is a freshly issued login code for that user, so users, roles and tokens are unchanged and exactly one login code is pending |
| Auth.Verify2FA | backend/app/Http/Controllers/Api/AuthController.php:61-93 | A token is created exactly when the rules pass and the code verifies. A failed verification gives the code error and changes nothing. Success returns the profile and a token with the next token id for that user. The only changes are the spent code, the token appended to the tokens, and the token counter advancing by one |
| Auth.Resend2FA | backend/app/Http/Controllers/Api/AuthController.php:95-114 | It fails exactly for an unknown user id. Otherwise the only change is a freshly issued login code, with neither the password nor the active flag consulted |
| Auth.UnknownEmailLooksLikeWrongPassword | backend/app/Http/Controllers/Api/AuthController.php:29-35 | An unknown e-mail and a wrong password produce identical replies and states |
| Auth.LoginIssuesNoToken | backend/app/Http/Controllers/Api/AuthController.php:53-58 | Login never changes the tokens |
| Auth.LoginThenVerify | backend/app/Http/Controllers/Api/AuthController.php:45-90 | The code a successful login issued verifies within ten minutes and yields a token for that user, with the user's role names |
| Auth.VerifyIgnoresActiveFlag | backend/app/Http/Controllers/Api/AuthController.php:61-93 | Deactivating the user does not change whether verify2FA succeeds |
| Auth.ResendRevokesLoginCode | backend/app/Http/Controllers/Api/AuthController.php:95-109 | After a resend with a different draw, the code from login no longer verifies |
| RoleGate.Handle | backend/app/Http/Middleware/CheckRole.php:17-54 | No user gives 401. Otherwise the request is allowed exactly when some required role name is among the user's role names. A refusal carries the required list and the user's names |
| RoleGate.HoldsAnyAsSets | backend/app/Http/Middleware/CheckRole.php:37-43 | The loop's "some index" test is the same as "some required role is held" |
| RoleGate.NoUserIsUnauthenticated | backend/app/Http/Middleware/CheckRole.php:20-24 | Without a user the answer is 401, whatever is required |
| RoleGate.EmptyRequirementForbids | backend/app/Http/Middleware/CheckRole.php:37-51 | An empty required list refuses every authenticated user with 403 |
| RoleGate.DecideMonotone | backend/app/Http/Middleware/CheckRole.php:37-43 | More held roles, or more accepted roles, never turn an allow into a refusal |
| RoleGate.LegacyRoleIgnored | backend/app/Http/Middleware/CheckRole.php:34 | The legacy single role column never changes the decision |
| Routes.Admit | backend/routes/api.php:11-56 | Unauthenticated routes admit everyone. An authenticated route refuses a caller without a token. An authenticated route with no role list admits every token holder. A role-gated route admits exactly the callers holding one of its roles |
| Routes.PublicRoutesAdmitEveryone | backend/routes/api.php:12-15 | Login, both two-factor endpoints and the type listing admit anyone |
| Routes.SessionRoutesAdmitTokenHolders | backend/routes/api.php:17-23 | Logout, `me` and `user` admit every token holder whatever roles they hold, and refuse a caller without a token |
| Routes.GatedRoutesAreAuthenticated | backend/routes/api.php:18-56 | Every role-gated route sits behind authentication |
| Routes.DeleteToolIsOwnerOnly | backend/routes/api.php:54-55 | Deleting a tool admits exactly the owners |
| Routes.WriteToolIsOwnerOrBackend | backend/routes/api.php:48-53 | Creating and updating a tool admit exactly owner or backend holders, so a frontend-only caller gets 403 with both lists |
| Routes.ReadToolAdmitsAllThreeRoles | backend/routes/api.php:46-51 | Listing and showing tools admit owner, frontend or backend holders |
| Routes.AdministrationIsOwnerOnly | backend/routes/api.php:26-43 | The type-writing, user and role routes admit exactly the owners |
| ClientRoles.SomeIncluded | frontend/src/hooks/useRoleAccess.ts:75 | The scan is true exactly when some wanted role is held |
| ClientRoles.CheckUserRole | frontend/src/hooks/useRoleAccess.ts:63-80 | Only a readable stored user can pass. Such a user passes exactly when some required role is among its roles, with missing roles counting as none |
| ClientRoles.AgreesWithServerGate | frontend/src/hooks/useRoleAccess.ts:63-80 | For the same role names the client check grants exactly what the server gate allows |
| ClientRoles.SingleIsOneElementList | frontend/src/hooks/useRoleAccess.ts:73 | A single required role behaves as a one-element list |
| ClientRoles.RefusalCases | frontend/src/hooks/useRoleAccess.ts:66-79 | Each of these refuses: a missing `roles` field, an empty requirement list, no stored user, malformed JSON |
| CacheAside.CacheKey | backend/app/Services/CacheService.php:18 | The stored key is the prefix followed by the application key, unchanged |
| CacheAside.CacheKeyInjective | backend/app/Services/CacheService.php:18-30 | Distinct application keys never share an entry |
| CacheAside.Remember | backend/app/Services/CacheService.php:28-43 | Only the prefixed key can change. A live entry is returned without running the producer. A raising backend runs the producer once, uncached. A healthy miss runs it once and stores the result under the given or default lifetime. A producer that throws, or a failing write, makes the fallback run the producer a second time |
| CacheAside.Forget | backend/app/Services/CacheService.php:51-62 | A healthy backend removes the prefixed key and reports whether it was present. A failing one returns false and changes nothing |
| CacheAside.ForgetMultiple | backend/app/Services/CacheService.php:70-75 | Forgetting each key in turn removes exactly the prefixed keys, or nothing when the backend fails |
| CacheAside.RememberTwiceProducesOnce | backend/app/Services/CacheService.php:34-37 | Two calls within the lifetime run the producer once and return the same value |
| CacheAside.ForgetForcesRecompute | backend/app/Services/CacheService.php:34-57 | After `forget` the next `remember` runs the producer again and returns its value |
| ToolCatalog.CountFor | backend/app/Http/Controllers/Api/AiToolsTypeController.php:35-47 | A type's entry keeps its id, name and description. Its count is at least both counts and equals one of them |
| ToolCatalog.TypesWithCounts | backend/app/Http/Controllers/Api/AiToolsTypeController.php:29-49 | There is one entry per type, in table order, with the type's id, name and description. Its `tools_count` is the larger of the legacy count and the many-to-many count |
| ToolCatalog.LegacyBoundedByPivot | backend/app/Http/Controllers/Api/AiToolsTypeController.php:35-40 | When every legacy type is mirrored in the pivot, the legacy count never exceeds the pivot count |
| ToolCatalog.ReportedCountIsPivotCount | backend/app/Http/Controllers/Api/AiToolsTypeController.php:40 | On such a catalogue every reported count is exactly the many-to-many count |
| ToolCatalog.UnreferencedTypeCountsZero | backend/app/Http/Controllers/Api/AiToolsTypeController.php:35-40 | A type no tool references has both counts zero |
| TypesController.Index | backend/app/Http/Controllers/Api/AiToolsTypeController.php:21-61 | The reply always says `cached`. A live entry is served as stored and nothing changes. A miss or a raising backend serves the freshly computed listing. A healthy miss stores it for 3600 s under the one listing key |
| TypesController.NameFailures | backend/app/Http/Controllers/Api/AiToolsTypeController.php:68-70 | A name passes exactly when it is non-empty and at most 255 characters |
| TypesController.StoreType | backend/app/Http/Controllers/Api/AiToolsTypeController.php:66-86 | It is refused exactly for an empty or over-long name, and a refusal writes nothing. Success appends the type with the next id, reports it with a zero count, and forgets the listing key when the backend is healthy |
| TypesController.ClearCache | backend/app/Http/Controllers/Api/AiToolsTypeController.php:91-98 | Only the listing key can change, and a healthy backend removes it |
| TypesController.IndexIsFreshWhenCoherent | backend/app/Http/Controllers/Api/AiToolsTypeController.php:21-61 | When the cached listing matches the catalogue, `index` serves the current listing and keeps them matched |
| TypesController.HealthyWritesKeepCoherence | backend/app/Http/Controllers/Api/AiToolsTypeController.php:76-93 | Creating a type, or clearing the cache, on a healthy backend keeps the cache matched to the catalogue |
| TypesController.StoredTypeCountIsZero | backend/app/Http/Controllers/Api/AiToolsTypeController.php:74-80 | The zero count `store` reports is what the listing computes for the new type, and the catalogue stays well formed |
| TypesController.FailedForgetServesStaleListing | backend/app/Http/Controllers/Api/AiToolsTypeController.php:76 | When the forget fails, the next cache hit serves the old listing, which lacks the new type |
| ToolsController.Violations | backend/app/Http/Controllers/Api/AiToolController.php:62-72 | The validator reports nothing exactly when every rule of the request holds, including non-empty id lists of existing rows |
| ToolsController.UnknownIds | backend/app/Http/Controllers/Api/AiToolController.php:68-71 | Per-element `exists` fails for nothing exactly when every id is known, with at most one failure per element |
| ToolsController.Sync | backend/app/Http/Controllers/Api/AiToolController.php:162-165 | The tool's rows become exactly the given ids, and other tools' rows stay |
| ToolsController.Detach | backend/database/migrations/2025_10_15_201245_create_ai_tool_ai_tools_type_table.php:16 | The cascade removes exactly the tool's rows |
| ToolsController.Attach | backend/app/Http/Controllers/Api/AiToolController.php:84-87 | The insert fails exactly when the list repeats an id or a pair exists. Otherwise the rows are the old rows plus the tool's pairs |
| ToolsController.VisibleTools | backend/app/Http/Controllers/Api/AiToolController.php:42-46 | The listed tools are exactly the tools with one of the caller's role ids. No row appears more often than in the table |
| ToolsController.VisibleToolsSnoc | backend/app/Http/Controllers/Api/AiToolController.php:42-46 | Table order: appending a row to the table appends it to the list exactly when it carries one of the role ids |
| ToolsController.ToolById | backend/app/Http/Controllers/Api/AiToolController.php:110 | `find` returns a row with that id, and none exactly when no row has it |
| ToolsController.ListTools | backend/app/Http/Controllers/Api/AiToolController.php:21-52 | An owner sees every tool. A non-owner sees exactly the tools sharing one of their role ids, and nothing when they have none. No row appears more often than in the table |
| ToolsController.ListToolsSnoc | backend/app/Http/Controllers/Api/AiToolController.php:33-46 | A non-owner's listing keeps table order: an appended row joins the end of the listing exactly when it shares one of the caller's roles |
| ToolsController.Show | backend/app/Http/Controllers/Api/AiToolController.php:108-121 | A tool is found exactly when one has the id, with no role filter |
| ToolsController.ReplaceTool | backend/app/Http/Controllers/Api/AiToolController.php:152-159 | The row with the id is replaced in place and every other row is kept |
| ToolsController.RemoveTool | backend/app/Http/Controllers/Api/AiToolController.php:197 | Exactly the rows with the id are gone |
| ToolsController.Store | backend/app/Http/Controllers/Api/AiToolController.php:60-100 | A refusal happens exactly when a rule fails, and it writes nothing. Otherwise the tool is appended with the next id and legacy type `typeIds[0]`. Its type and role rows are exactly the given ids, nothing else changes, and a healthy backend forgets the listing key |
| ToolsController.StoreAsWritten | backend/app/Http/Controllers/Api/AiToolController.php:74-93 | A refusal happens exactly when a rule fails, and it writes nothing. A server error leaves the new tool row in place. It may leave that tool's type rows too, but never a role row, and the types, roles and cache are unchanged. A success is exactly what the corrected creation does |
| ToolsController.Update | backend/app/Http/Controllers/Api/AiToolController.php:130-178 | A missing id gives 404 before validation, and a refusal writes nothing. Success replies with the request's fields under that id and legacy type `typeIds[0]`. Types, roles and the id counters are unchanged, and a healthy backend forgets the listing key; a failing one leaves the cache as it was |
| ToolsController.UpdateRewritesCatalog | backend/app/Http/Controllers/Api/AiToolController.php:152-165 | For an existing id and an acceptable request the update succeeds. The tool list keeps its length, the row with the id becomes the replied tool and every other row is kept. Both join sets hold exactly the given ids for that tool and keep every other tool's rows |
| ToolsController.Destroy | backend/app/Http/Controllers/Api/AiToolController.php:186-206 | A missing id gives 404 and writes nothing. Otherwise the tool and every join row of it in both tables are gone, nothing else changes, and a healthy backend forgets the listing key |
| ToolsController.StoreKeepsInvariants | backend/app/Http/Controllers/Api/AiToolController.php:74-87 | Creation keeps the catalogue well formed and keeps every legacy type mirrored in the pivot |
| ToolsController.UpdateKeepsWellFormed | backend/app/Http/Controllers/Api/AiToolController.php:152-165 | Update keeps the catalogue well formed |
| ToolsController.UpdateKeepsLegacyInPivot | backend/app/Http/Controllers/Api/AiToolController.php:152-165 | Update keeps every legacy type mirrored in the pivot |
| ToolsController.DestroyKeepsInvariants | backend/app/Http/Controllers/Api/AiToolController.php:186-206 | Deletion keeps both invariants |
| ToolsController.RemovePreservesDistinctIds | backend/app/Http/Controllers/Api/AiToolController.php:197 | Removing rows keeps tool ids distinct |
| ToolsController.ForgottenListingIsRecomputed | backend/app/Http/Controllers/Api/AiToolController.php:93 | With the listing key gone, the next listing is computed from the catalogue |
| ToolsController.ListingAfterToolWrite | backend/app/Http/Controllers/Api/AiToolController.php:93-200 | After any successful create, update or delete on a healthy cache, the next listing is current, and every count is the many-to-many count |
| ToolsController.ShowBypassesListing | backend/app/Http/Controllers/Api/AiToolController.php:21-121 | A tool hidden from a non-owner's listing is still returned by `show` |
| ToolsController.UpdateIsIdempotent | backend/app/Http/Controllers/Api/AiToolController.php:130-178 | For an existing id and an acceptable request the update succeeds, and repeating it gives the same reply and catalogue |
| ToolsController.AsWrittenAgreesWhenDistinct | backend/app/Http/Controllers/Api/AiToolController.php:60-100 | On a well-formed catalogue with duplicate-free id lists, the code as written behaves exactly like the corrected creation |
| ToolsController.AsWrittenFailsIff | backend/app/Http/Controllers/Api/AiToolController.php:68-87 | On a well-formed catalogue the code as written ends in a server error exactly when a valid request repeats a type id or a role id |
| ToolsController.DuplicateTypeIdLeavesToolWithoutTypes | backend/app/Http/Controllers/Api/AiToolController.php:74-84 | A valid request with a repeated type id ends in a server error. The only change is the tool row and the advanced id counter, which breaks the legacy-in-pivot invariant |
| ToolsController.DuplicateRoleIdLeavesToolUnlisted | backend/app/Http/Controllers/Api/AiToolController.php:74-87 | A valid request with distinct type ids and a repeated role id ends in a server error. The only changes are the tool row, its type rows and the id counter. The tool has no role row, so no non-owner's listing shows it, yet `show` still finds it |
| ToolsController.DuplicateTypeIdExample | backend/app/Http/Controllers/Api/AiToolController.php:68-84 | The concrete request with type ids [3, 3] is accepted by validation and fails as written, while the corrected creation succeeds |
| Backfill.LegacyPairs | backend/database/seeders/MigrateAiToolTypesToPivotSeeder.php:18-27 | The pairs are exactly (tool, legacy type) for the tools that have one |
| Backfill.LegacyTyped | backend/database/seeders/MigrateAiToolTypesToPivotSeeder.php:30 | The number reported is at most the number of tools, and it is zero exactly when no tool has a legacy type |
| Backfill.Run | backend/database/seeders/MigrateAiToolTypesToPivotSeeder.php:15-31 | The per-row insert loop adds the legacy pairs to the join table and reports the number of tools with a legacy type |
| Backfill.LegacyPairsSnoc | backend/database/seeders/MigrateAiToolTypesToPivotSeeder.php:18-28 | Each further tool adds only its own pair, and one to the count |
| Backfill.BackfillEstablishesLegacyInPivot | backend/database/seeders/MigrateAiToolTypesToPivotSeeder.php:18-28 | Afterwards every legacy type is mirrored in the pivot, and no existing row is lost |
| Backfill.BackfillAddsOnlyLegacyPairs | backend/database/seeders/MigrateAiToolTypesToPivotSeeder.php:22-27 | Every added row pairs a tool with its legacy type |
| Backfill.NullLegacyAddsNothing | backend/database/seeders/MigrateAiToolTypesToPivotSeeder.php:18 | Without legacy types nothing changes |
| Backfill.BackfillIdempotent | backend/database/seeders/MigrateAiToolTypesToPivotSeeder.php:22 | Running twice leaves what one run left |
| Backfill.ReportedNumberIsNotInsertedRows | backend/database/seeders/MigrateAiToolTypesToPivotSeeder.php:30 | A second run inserts nothing yet reports the same number |
| Backfill.BackfillKeepsWellFormed | backend/database/seeders/MigrateAiToolTypesToPivotSeeder.php:15-31 | The backfill keeps a well-formed catalogue well formed |
| Backfill.BackfilledCountsArePivotCounts | backend/database/seeders/MigrateAiToolTypesToPivotSeeder.php:15-31 | After the backfill every listed count is the many-to-many count |
| RolesController.Failures | backend/app/Http/Controllers/Api/RoleController.php:22-25 | Validation passes exactly when the name is non-empty, at most 255 characters and not taken, and the description is non-empty and at most 500. A taken name reports `unique` |
| RolesController.Store | backend/app/Http/Controllers/Api/RoleController.php:20-36 | A refusal happens exactly when a rule fails, and it writes nothing. Success appends exactly one role with the next id, name and description |
| RolesController.StoreKeepsNamesUnique | backend/app/Http/Controllers/Api/RoleController.php:23 | Role names stay unique through `store` |
| RolesController.SecondStoreOfANameFails | backend/app/Http/Controllers/Api/RoleController.php:23 | Creating a name a second time is refused as not unique and writes nothing |
| RolesController.IndexAfterStore | backend/app/Http/Controllers/Api/RoleController.php:11-30 | After a creation the unfiltered listing is the old listing followed by the new role |
| ApiConfig.Split | frontend/src/lib/config.ts:23 | The pieces between dots: at least one, none containing a dot |
| ApiConfig.JoinSplit | frontend/src/lib/config.ts:23 | Rejoining the pieces with dots gives back the string |
| ApiConfig.SplitJoin | frontend/src/lib/config.ts:23 | Splitting dot-free pieces joined with dots gives back the pieces |
| ApiConfig.DigitRun | frontend/src/lib/config.ts:23 | The greedy digit run is all digits and is followed by a non-digit or the end |
| ApiConfig.MatchGroupsIsSplit | frontend/src/lib/config.ts:23 | The left-to-right matcher of the host pattern accepts exactly the strings of k dot-separated groups of one to three digits |
| ApiConfig.GetApiUrl | frontend/src/lib/config.ts:12-30 | A non-empty environment URL in production wins. Otherwise a host of four digit groups gives `http://host:8201/api`, and anything else, or no window, gives the localhost URL |
| ApiConfig.GetApiEndpoint | frontend/src/lib/config.ts:35-39 | The endpoint is the base, then one slash, then the path with at most one leading slash removed |
| ApiConfig.EnvUrlOnlyInProduction | frontend/src/lib/config.ts:14 | Outside production the environment URL is ignored |
| ApiConfig.FourGroupsAccepted | frontend/src/lib/config.ts:23-25 | Any four groups of one to three digits make an accepted host, with no range check |
| ApiConfig.OutOfRangeAddressAccepted | frontend/src/lib/config.ts:23-25 | So `999.999.999.999` is accepted |
| ApiConfig.NonAddressesFallBack | frontend/src/lib/config.ts:19-29 | These fall back to localhost: a dot-free name, a four-digit group, and no window |
| ApiConfig.OneLeadingSlashStripped | frontend/src/lib/config.ts:37-38 | "/x" and "x" reach the same endpoint, and "//x" keeps one slash |

## Left out

- Mail dispatch (backend/app/Services/TwoFactorService.php:77-93) is I/O and is modelled as always succeeding. In the code a mail failure raises after the code row is written, so the row stays.
- `random_int` is the parameter `drawn`, ranging over [0, 999999]. `Hash::check` is the parameter `hashMatches`. The `url` rule is the parameter `isUrl`.
- The `email` format rule of `login` is not modelled: only `required` is. Laravel's input normalisation (trimming, empty string to null) is taken as already applied.
- `logout` and `me` (backend/app/Http/Controllers/Api/AuthController.php:116-139) are left out: they are a trivial token delete and a profile read. Sanctum token internals are abstracted to a fresh token id.
- `CacheService::clearPrefix` depends on the Redis driver's `KEYS` scan and falls back to a flush. It is left out, as are all `Log::` calls.
- The cache producer is deterministic within one call, so its two runs on the fallback path return the same outcome.
- Timestamps are not modelled: no row carries `created_at` or `updated_at`. So the listing's timestamp fields (backend/app/Http/Controllers/Api/AiToolsTypeController.php:47-48) and the `updated_at` change made by `markAsUsed` are absent. The code rows' ip and user agent are carried but not reasoned about.
- The tool replies (listing, `show`, `store`, `update`) carry bare tool rows. The eager-loaded `roles`, `aiToolsType` and `aiToolsTypes` relations (backend/app/Http/Controllers/Api/AiToolController.php:30, 42, 90, 110, 168) are left out. They follow from the reply tool's `legacyTypeId` and the catalogue's `toolTypes` and `toolRoles` rows for its id.
- Races between concurrent requests are not modelled: for example, between deleting old codes and inserting the new one, or between a write and the cache forget. Each operation is atomic.
- The database's row order for `first()` without `orderBy` is taken to be insertion order.
- MySQL's case-insensitive collation in the role-name `unique` rule is not modelled: names are compared exactly.
- Schema.UserByEmail: compares e-mails exactly, while MySQL's case-insensitive collation makes `User::where('email', …)->first()` (backend/app/Http/Controllers/Api/AuthController.php:29) match regardless of letter case. So Auth.Login refuses an e-mail that differs from the stored one only in case, which the backend would accept. The collation belongs to the database configuration, which is not part of this model.
- PHP's loose `in_array` in CheckRole is modelled as exact string membership, which agrees for string role names.
- The React pages, the redirecting `useRoleAccess` hook, RoleProtected and RoleGuard are rendering and navigation only.
- The user administration routes (`/users`) appear in the route table only; their controller is not part of this model.
- RolesController.Index carries no contract of its own: it returns the table. RolesController.IndexAfterStore states what it shows after a creation.
- ToolsController.StoreAsWritten: on its own, its contract does not say which failure branch a request takes. ToolsController.AsWrittenFailsIff, ToolsController.AsWrittenAgreesWhenDistinct, ToolsController.DuplicateTypeIdLeavesToolWithoutTypes and ToolsController.DuplicateRoleIdLeavesToolUnlisted together pin the exact result on a well-formed catalogue.

## Findings

| source | as written | input that shows it | evidently intended | confidence | as-written member | corrected member |
|---|---|---|---|---|---|---|
| backend/app/Http/Controllers/Api/AiToolController.php:68-87 | `store` validates each element of `ai_tools_type_ids` with `exists` but not for distinctness. It inserts the tool row, then calls `attach` with the raw list, outside a transaction. A repeated id violates the join table's unique pair index after the tool row is written. `role_ids` has the same defect: a repeated role id passes `exists`, and the second `attach` (line 87) then fails after the tool row and its type rows are written | a valid request with `ai_tools_type_ids` = [3, 3] on a catalogue holding type 3; or `role_ids` = [1, 1] with distinct type ids | the tool is created with each listed type and role once, or the request is refused. No tool is left whose legacy type has no join row, a state in which the listing's count (the larger of the two counts) stops being the many-to-many count. ToolsController.DuplicateTypeIdLeavesToolWithoutTypes and ToolsController.DuplicateTypeIdExample exhibit the type-id failure, ToolsController.DuplicateRoleIdLeavesToolUnlisted the role-id one (a tool hidden from every non-owner), and ToolsController.AsWrittenFailsIff says these are the only failures; ToolsController.StoreKeepsInvariants proves the correction keeps the invariant | not executed | ToolsController.StoreAsWritten | ToolsController.Store |

=== FILE: api_config.dfy ===
/**
  The frontend's API base URL and endpoint construction (config.ts). The
  environment and the browser's hostname are parameters: `hostname` is `None`
  when there is no window (server-side rendering).
*/
module ApiConfig {
  import opened Common
  import CodeFormat

  const Production := "production"
  const LocalhostApi := "http://localhost:8201/api"

  predicate NoDot(s: string) {
    forall i :: 0 <= i < |s| ==> s[i] != '.'
  }

  /** The pieces of a string between its dots (`s.split('.')`). */
  function Split(s: string): (parts: seq<string>)
    ensures |parts| >= 1
    ensures forall i :: 0 <= i < |parts| ==> NoDot(parts[i])
  {
    if |s| == 0 then [""]
    else if s[0] == '.' then [""] + Split(s[1..])
    else
      var rest := Split(s[1..]);
      [[s[0]] + rest[0]] + rest[1..]
  }

  /** The pieces glued back with dots (`parts.join('.')`). */
  function Join(parts: seq<string>): string
    requires |parts| >= 1
  {
    if |parts| == 1 then parts[0] else parts[0] + "." + Join(parts[1..])
  }

  /** One group of the host pattern: one to three ASCII digits. */
  predicate Group(g: string) {
    1 <= |g| <= 3 && CodeFormat.AllDigits(g)
  }

  /** The shape `/^(\d{1,3}\.){3}\d{1,3}$/` accepts, stated on the dot-separated pieces: four groups. */
  predicate IpShaped(host: string) {
    |Split(host)| == 4 && forall i :: 0 <= i < |Split(host)| ==> Group(Split(host)[i])
  }

  /** The length of the run of digits at the start of `s`. */
  function DigitRun(s: string): (n: nat)
    ensures n <= |s|
    ensures CodeFormat.AllDigits(s[..n])
    ensures n < |s| ==> !CodeFormat.IsDigit(s[n])
  {
    if |s| == 0 || !CodeFormat.IsDigit(s[0]) then 0
    else
      var n := 1 + DigitRun(s[1..]);
      assert s[..n] == [s[0]] + s[1..][..n - 1];
      n
  }

  /**
    The regular expression `(\d{1,3}\.){k-1}\d{1,3}`, anchored at both ends,
    matched left to right. A digit is never a dot, so giving a group fewer
    digits than its run never lets the next `\.` or the end anchor match:
    the greedy run is the only candidate.
  */
  function MatchGroups(s: string, k: nat): bool
    requires k >= 1
    decreases k
  {
    var n := DigitRun(s);
    && 1 <= n <= 3
    && if k == 1 then n == |s| else n < |s| && s[n] == '.' && MatchGroups(s[n + 1..], k - 1)
  }

  /** `getApiUrl`. */
  function GetApiUrl(envUrl: Option<string>, nodeEnv: string, hostname: Option<string>): (url: string)
    ensures envUrl.Some? && envUrl.value != "" && nodeEnv == Production ==> url == envUrl.value
    ensures !(envUrl.Some? && envUrl.value != "" && nodeEnv == Production) && hostname.Some? && IpShaped(hostname.value)
            ==> url == "http://" + hostname.value + ":8201/api"
    ensures !(envUrl.Some? && envUrl.value != "" && nodeEnv == Production) && (hostname.None? || !IpShaped(hostname.value))
            ==> url == LocalhostApi
  {
    if envUrl.Some? && envUrl.value != "" && nodeEnv == Production then envUrl.value
    else if hostname.None? then LocalhostApi
    else
      MatchGroupsIsSplit(hostname.value, 4);
      if MatchGroups(hostname.value, 4) then "http://" + hostname.value + ":8201/api" else LocalhostApi
  }

  /** The request path without one leading slash. */
  function CleanPath(path: string): string {
    if |path| > 0 && path[0] == '/' then path[1..] else path
  }

  /** `getApiEndpoint`: the base, one slash, and the path with at most one leading slash removed. */
  function GetApiEndpoint(envUrl: Option<string>, nodeEnv: string, hostname: Option<string>, path: string): (r: string)
    ensures var base := GetApiUrl(envUrl, nodeEnv, hostname);
            && |r| > |base| && r[..|base|] == base && r[|base|] == '/'
            && (path == r[|base| + 1..] || path == "/" + r[|base| + 1..])
            && (|path| > 0 && path[0] == '/' ==> path == "/" + r[|base| + 1..])
  {
    var base := GetApiUrl(envUrl, nodeEnv, hostname);
    var cleaned := CleanPath(path);
    CleanPathDropsOneSlash(path);
    var r := base + "/" + cleaned;
    assert r[..|base|] == base && r[|base| + 1..] == cleaned;
    r
  }

  lemma CleanPathDropsOneSlash(path: string)
    ensures path == CleanPath(path) || path == "/" + CleanPath(path)
    ensures |path| > 0 && path[0] == '/' ==> path == "/" + CleanPath(path)
  {
    if |path| > 0 && path[0] == '/' {
      assert path == [path[0]] + path[1..];
    }
  }

  // ---------------------------------------------------------------- split and join

  lemma {:induction false} SplitNoDot(p: string)
    requires NoDot(p)
    ensures Split(p) == [p]
  {
    if |p| > 0 {
      SplitNoDot(p[1..]);
      assert [p[0]] + p[1..] == p;
    }
  }

  lemma {:induction false} SplitCons(p: string, r: string)
    requires NoDot(p)
    ensures Split(p + "." + r) == [p] + Split(r)
  {
    var s := p + "." + r;
    if |p| == 0 {
      assert s == "." + r;
      assert s[1..] == r;
    } else {
      assert s[1..] == p[1..] + "." + r;
      SplitCons(p[1..], r);
      assert [p[0]] + p[1..] == p;
    }
  }

  lemma {:induction false} JoinSplit(s: string)
    ensures Join(Split(s)) == s
    decreases |s|
  {
    if |s| > 0 {
      JoinSplit(s[1..]);
      var rest := Split(s[1..]);
      if s[0] == '.' {
        assert Split(s)[1..] == rest;
        assert s == "" + "." + s[1..];
      } else {
        var parts := Split(s);
        assert parts[1..] == rest[1..];
        if |rest| == 1 {
          assert s == [s[0]] + rest[0];
        } else {
          assert Join(rest) == rest[0] + "." + Join(rest[1..]);
          assert s == [s[0]] + s[1..];
        }
      }
    }
  }

  lemma {:induction false} SplitJoin(parts: seq<string>)
    requires |parts| >= 1
    requires forall i :: 0 <= i < |parts| ==> NoDot(parts[i])
    ensures Split(Join(parts)) == parts
  {
    if |parts| == 1 {
      SplitNoDot(parts[0]);
    } else {
      SplitJoin(parts[1..]);
      SplitCons(parts[0], Join(parts[1..]));
    }
  }

  /** The matcher accepts exactly the hosts of `k` digit groups. */
  lemma MatchGroupsIsSplit(s: string, k: nat)
    requires k >= 1
    ensures MatchGroups(s, k) <==> |Split(s)| == k && forall i :: 0 <= i < k ==> Group(Split(s)[i])
  {
    if MatchGroups(s, k) {
      MatchedHasGroups(s, k);
    }
    if |Split(s)| == k && forall i :: 0 <= i < k ==> Group(Split(s)[i]) {
      GroupsAreMatched(s, k);
    }
  }

  lemma {:induction false} MatchedHasGroups(s: string, k: nat)
    requires k >= 1 && MatchGroups(s, k)
    ensures |Split(s)| == k && forall i :: 0 <= i < k ==> Group(Split(s)[i])
    decreases k
  {
    var n := DigitRun(s);
    var digits := s[..n];
    assert Group(digits);
    DigitsHaveNoDot(digits);
    if k == 1 {
      assert digits == s;
      SplitNoDot(s);
    } else {
      var rest := s[n + 1..];
      CutAtDot(s, n);
      MatchedHasGroups(rest, k - 1);
      GroupCons(digits, rest, k - 1);
    }
  }

  lemma CutAtDot(s: string, n: nat)
    requires n < |s| && s[n] == '.'
    ensures s == s[..n] + "." + s[n + 1..]
  {
  }

  /** A group, a dot, and `k` groups make `k + 1` groups. */
  lemma GroupCons(g: string, rest: string, k: nat)
    requires Group(g) && NoDot(g)
    requires |Split(rest)| == k && forall i :: 0 <= i < k ==> Group(Split(rest)[i])
    ensures |Split(g + "." + rest)| == k + 1 && forall i :: 0 <= i < k + 1 ==> Group(Split(g + "." + rest)[i])
  {
    SplitCons(g, rest);
    var parts := Split(g + "." + rest);
    forall i | 0 <= i < k + 1 ensures Group(parts[i]) {
      if i > 0 {
        assert parts[i] == Split(rest)[i - 1];
      }
    }
  }

  lemma {:induction false} GroupsAreMatched(s: string, k: nat)
    requires k >= 1 && |Split(s)| == k && forall i :: 0 <= i < k ==> Group(Split(s)[i])
    ensures MatchGroups(s, k)
    decreases k
  {
    var parts := Split(s);
    var p := parts[0];
    assert Group(p);
    JoinSplit(s);
    if k == 1 {
      assert s == p;
      DigitRunOfAllDigits(s);
    } else {
      var tail := parts[1..];
      var rest := Join(tail);
      assert s == p + "." + rest;
      SplitJoin(tail);
      forall i | 0 <= i < k - 1 ensures Group(Split(rest)[i]) {
        assert Split(rest)[i] == parts[i + 1];
      }
      GroupsAreMatched(rest, k - 1);
      MatchStep(p, rest, k);
    }
  }

  /** A group, a dot, and a string that matches `k - 1` groups match `k` groups. */
  lemma MatchStep(p: string, rest: string, k: nat)
    requires k >= 2 && Group(p) && MatchGroups(rest, k - 1)
    ensures MatchGroups(p + "." + rest, k)
  {
    var s := p + "." + rest;
    assert s[..|p|] == p;
    DigitRunOfGroup(s, p);
    assert s[|p| + 1..] == rest;
  }

  /** A digit is never a dot. */
  lemma DigitsHaveNoDot(s: string)
    requires CodeFormat.AllDigits(s)
    ensures NoDot(s)
  {
  }

  lemma {:induction false} DigitRunOfAllDigits(s: string)
    requires CodeFormat.AllDigits(s)
    ensures DigitRun(s) == |s|
  {
    if |s| > 0 {
      DigitRunOfAllDigits(s[1..]);
    }
  }

  /** A digit run followed by a non-digit is read whole. */
  lemma {:induction false} DigitRunOfGroup(s: string, p: string)
    requires |p| < |s| && s[..|p|] == p && CodeFormat.AllDigits(p) && !CodeFormat.IsDigit(s[|p|])
    ensures DigitRun(s) == |p|
  {
    if |p| > 0 {
      assert s[1..][..|p| - 1] == p[1..];
      DigitRunOfGroup(s[1..], p[1..]);
    }
  }

  // ---------------------------------------------------------------- properties

  /** Outside production the environment URL is ignored. */
  lemma EnvUrlOnlyInProduction(envUrl: Option<string>, nodeEnv: string, hostname: Option<string>)
    requires nodeEnv != Production
    ensures GetApiUrl(envUrl, nodeEnv, hostname) == GetApiUrl(None, nodeEnv, hostname)
  {
  }

  /** Any four groups of one to three digits form an accepted host: there is no range check. */
  lemma FourGroupsAccepted(a: string, b: string, c: string, d: string, nodeEnv: string)
    requires Group(a) && Group(b) && Group(c) && Group(d)
    requires nodeEnv != Production
    ensures var host := a + "." + b + "." + c + "." + d;
            IpShaped(host) && GetApiUrl(None, nodeEnv, Some(host)) == "http://" + host + ":8201/api"
  {
    var parts := [a, b, c, d];
    forall i | 0 <= i < 4 ensures NoDot(parts[i]) {
      assert Group(parts[i]);
    }
    assert Join(parts) == a + "." + b + "." + c + "." + d by {
      assert Join(parts[3..]) == d;
      assert Join(parts[2..]) == c + "." + d;
      assert Join(parts[1..]) == b + "." + c + "." + d;
    }
    SplitJoin(parts);
  }

  /** So `999.999.999.999` is taken as an address. */
  lemma OutOfRangeAddressAccepted()
    ensures var g := "999"; IpShaped(g + "." + g + "." + g + "." + g)
  {
    var g := "999";
    assert Group(g);
    FourGroupsAccepted(g, g, g, g, "development");
  }

  /** A name without dots, or a group of four digits, falls back to localhost. */
  lemma NonAddressesFallBack(name: string)
    requires NoDot(name)
    ensures GetApiUrl(None, "development", Some(name)) == LocalhostApi
    ensures GetApiUrl(None, "development", Some("1234.1.1.1")) == LocalhostApi
    ensures GetApiUrl(None, "development", None) == LocalhostApi
  {
    SplitNoDot(name);
    var parts := ["1234", "1", "1", "1"];
    assert Join(parts) == "1234.1.1.1";
    SplitJoin(parts);
    assert !Group(parts[0]);
  }

  /** "/x" and "x" reach the same endpoint; "//x" keeps one slash. */
  lemma OneLeadingSlashStripped(envUrl: Option<string>, nodeEnv: string, hostname: Option<string>, x: string)
    requires |x| == 0 || x[0] != '/'
    ensures GetApiEndpoint(envUrl, nodeEnv, hostname, "/" + x) == GetApiEndpoint(envUrl, nodeEnv, hostname, x)
    ensures GetApiEndpoint(envUrl, nodeEnv, hostname, "//" + x)
            == GetApiUrl(envUrl, nodeEnv, hostname) + "//" + x
  {
    var base := GetApiUrl(envUrl, nodeEnv, hostname);
    assert CleanPath("/" + x) == x by { assert ("/" + x)[1..] == x; }
    assert CleanPath("//" + x) == "/" + x by { assert ("//" + x)[1..] == "/" + x; }
    assert base + "/" + ("/" + x) == base + "//" + x;
  }
}

=== FILE: auth.dfy ===
/**
  The login handshake of AuthController as a state machine over users, codes
  and access tokens: `login` checks credentials and issues a code, `verify2FA`
  spends the code and only then issues a token, `resend2FA` replaces the code.
*/
module Auth {
  import opened Common
  import opened Schema
  import opened VerificationCodes
  import opened CodeFormat
  import opened TwoFactor

  /** The purpose tag of every code this controller issues. */
  const LoginKind := "login"

  const CredentialsMessage := "The provided credentials are incorrect."
  const DeactivatedMessage := "Your account has been deactivated. Please contact an administrator."
  const CodeMessage := "The verification code is invalid or has expired."
  const SentMessage := "Verification code sent to your email"
  const ResentMessage := "New verification code sent to your email"

  /** A Sanctum personal access token; its plain-text secret is abstracted to its id. */
  datatype AccessToken = AccessToken(id: nat, userId: nat)

  datatype AuthState = AuthState(
    users: seq<User>,
    roles: seq<Role>,
    codes: CodeStore,
    tokens: seq<AccessToken>,
    nextTokenId: nat)

  /** Where a request came from, recorded on the code row. */
  datatype Client = Client(ip: Option<string>, userAgent: Option<string>)

  /** The two kinds of 422 reply: a message the controller chose, or validator rules that failed. */
  datatype AuthError =
    | Rejected(field: string, message: string)
    | RulesFailed(failures: seq<(string, string)>)

  datatype LoginReply = LoginReply(requires2fa: bool, userId: nat, email: string, message: string)

  /** The user object of the verify2FA reply; `role` is the legacy single role's name. */
  datatype Profile = Profile(id: nat, name: string, email: string, role: Option<string>, roles: seq<string>)

  datatype SessionReply = SessionReply(user: Profile, token: AccessToken)

  datatype Step<T> = Step(state: AuthState, reply: Result<T, AuthError>)

  function LegacyRoleName(roles: seq<Role>, u: User): Option<string> {
    match u.legacyRoleId
    case None => None
    case Some(id) =>
      match RoleById(roles, id)
      case None => None
      case Some(role) => Some(role.name)
  }

  /** The projection verify2FA returns. */
  function ProfileOf(roles: seq<Role>, u: User): (p: Profile)
    ensures p.id == u.id && p.name == u.name && p.email == u.email
    ensures p.roles == RoleNames(roles, u.roleIds)
    ensures p.role.Some? <==> u.legacyRoleId.Some? && RoleById(roles, u.legacyRoleId.value).Some?
    ensures p.role.Some? ==> p.role.value == RoleById(roles, u.legacyRoleId.value).value.name
  {
    Profile(u.id, u.name, u.email, LegacyRoleName(roles, u), RoleNames(roles, u.roleIds))
  }

  /** The `required` rules of login: both fields present. */
  function LoginRuleFailures(email: string, password: string): seq<(string, string)> {
    (if email == "" then [("email", "required")] else [])
    + (if password == "" then [("password", "required")] else [])
  }

  /** True when (email, password) identifies an account: the first user with that e-mail has a matching hash. */
  predicate CredentialsMatch(s: AuthState, email: string, password: string, hashMatches: (string, string) -> bool) {
    var u := UserByEmail(s.users, email);
    u.Some? && hashMatches(password, u.value.passwordHash)
  }

  /**
    `login`: credentials first, then the active flag, then a fresh login code.
    `hashMatches(plain, hash)` stands for Hash::check; `drawn` for random_int.
  */
  function Login(s: AuthState, email: string, password: string, hashMatches: (string, string) -> bool,
                 drawn: nat, now: Time, client: Client): (r: Step<LoginReply>)
    requires drawn <= MaxCode
    ensures r.reply.Err? ==> r.state == s
    ensures LoginRuleFailures(email, password) == [] && !CredentialsMatch(s, email, password, hashMatches)
            ==> r.reply == Err(Rejected("email", CredentialsMessage))
    ensures LoginRuleFailures(email, password) == [] && CredentialsMatch(s, email, password, hashMatches)
            && !UserByEmail(s.users, email).value.active
            ==> r.reply == Err(Rejected("email", DeactivatedMessage))
    ensures r.reply.Ok? <==> (LoginRuleFailures(email, password) == [] && CredentialsMatch(s, email, password, hashMatches)
                             && UserByEmail(s.users, email).value.active)
    ensures r.reply.Ok? ==> var u := UserByEmail(s.users, email).value;
                            && r.reply.value == LoginReply(true, u.id, u.email, SentMessage)
                            && r.state.tokens == s.tokens
                            && r.state.users == s.users
                            && PendingCount(r.state.codes.rows, u.id, LoginKind) == 1
                            && r.state == s.(codes := SendVerificationCode(s.codes, u.id, LoginKind, drawn, now, client.ip, client.userAgent).store)
  {
    var failures := LoginRuleFailures(email, password);
    if failures != [] then Step(s, Err(RulesFailed(failures)))
    else
      match UserByEmail(s.users, email)
      case None => Step(s, Err(Rejected("email", CredentialsMessage)))
      case Some(u) =>
        if !hashMatches(password, u.passwordHash) then Step(s, Err(Rejected("email", CredentialsMessage)))
        else if !u.active then Step(s, Err(Rejected("email", DeactivatedMessage)))
        else
          var issued := SendVerificationCode(s.codes, u.id, LoginKind, drawn, now, client.ip, client.userAgent);
          Step(s.(codes := issued.store), Ok(LoginReply(true, u.id, u.email, SentMessage)))
  }

  /** The rules of verify2FA: `user_id` exists, `code` is present and exactly six characters. */
  function VerifyRuleFailures(s: AuthState, userId: nat, code: string): seq<(string, string)> {
    (if UserById(s.users, userId).None? then [("user_id", "exists")] else [])
    + (if code == "" then [("code", "required")] else if |code| != CodeLength then [("code", "size")] else [])
  }

  /** `verify2FA`: spend the login code; only on success create a token and return the profile. */
  function Verify2FA(s: AuthState, userId: nat, code: string, now: Time): (r: Step<SessionReply>)
    ensures r.reply.Err? ==> r.state == s
    ensures r.reply.Ok? <==> VerifyRuleFailures(s, userId, code) == [] && VerifyCode(s.codes, userId, code, LoginKind, now).ok
    ensures VerifyRuleFailures(s, userId, code) == [] && !VerifyCode(s.codes, userId, code, LoginKind, now).ok
            ==> r.reply == Err(Rejected("code", CodeMessage))
    ensures r.reply.Ok? ==> var u := UserById(s.users, userId).value;
                            && r.reply.value.user == ProfileOf(s.roles, u)
                            && r.reply.value.token.userId == userId
                            && r.state.tokens == s.tokens + [r.reply.value.token]
                            && r.reply.value.token == AccessToken(s.nextTokenId, userId)
                            && r.state == s.(codes := VerifyCode(s.codes, userId, code, LoginKind, now).store,
                                             tokens := s.tokens + [r.reply.value.token],
                                             nextTokenId := s.nextTokenId + 1)
  {
    var failures := VerifyRuleFailures(s, userId, code);
    if failures != [] then Step(s, Err(RulesFailed(failures)))
    else
      var u := UserById(s.users, userId).value;
      var verified := VerifyCode(s.codes, userId, code, LoginKind, now);
      if !verified.ok then Step(s, Err(Rejected("code", CodeMessage)))
      else
        var token := AccessToken(s.nextTokenId, userId);
        var s' := s.(codes := verified.store, tokens := s.tokens + [token], nextTokenId := s.nextTokenId + 1);
        Step(s', Ok(SessionReply(ProfileOf(s.roles, u), token)))
  }

  /** `resend2FA`: for any existing user, replace the pending login code; neither password nor active flag is checked. */
  function Resend2FA(s: AuthState, userId: nat, drawn: nat, now: Time, client: Client): (r: Step<string>)
    requires drawn <= MaxCode
    ensures r.reply.Err? <==> UserById(s.users, userId).None?
    ensures r.reply.Err? ==> r.state == s
    ensures r.reply.Ok? ==> && r.reply.value == ResentMessage
                            && r.state == s.(codes := SendVerificationCode(s.codes, userId, LoginKind, drawn, now, client.ip, client.userAgent).store)
  {
    if UserById(s.users, userId).None? then Step(s, Err(RulesFailed([("user_id", "exists")])))
    else
      var issued := SendVerificationCode(s.codes, userId, LoginKind, drawn, now, client.ip, client.userAgent);
      Step(s.(codes := issued.store), Ok(ResentMessage))
  }

  // ---------------------------------------------------------------- properties

  /** User ids are primary keys. */
  ghost predicate UniqueUserIds(users: seq<User>) {
    forall i, j :: 0 <= i < j < |users| ==> users[i].id != users[j].id
  }

  /** An unknown e-mail and a wrong password are indistinguishable to the caller. */
  lemma UnknownEmailLooksLikeWrongPassword(s: AuthState, email1: string, password1: string, email2: string, password2: string,
                                           hashMatches: (string, string) -> bool, drawn: nat, now: Time, client: Client)
    requires drawn <= MaxCode
    requires email1 != "" && password1 != "" && email2 != "" && password2 != ""
    requires UserByEmail(s.users, email1).None?
    requires UserByEmail(s.users, email2).Some? && !hashMatches(password2, UserByEmail(s.users, email2).value.passwordHash)
    ensures Login(s, email1, password1, hashMatches, drawn, now, client)
            == Login(s, email2, password2, hashMatches, drawn, now, client)
  {
  }

  /** A successful login carries no token: tokens appear only through verify2FA. */
  lemma LoginIssuesNoToken(s: AuthState, email: string, password: string, hashMatches: (string, string) -> bool,
                           drawn: nat, now: Time, client: Client)
    requires drawn <= MaxCode
    ensures Login(s, email, password, hashMatches, drawn, now, client).state.tokens == s.tokens
  {
  }

  /** End to end: the code that login issued verifies within ten minutes and yields a token for that user. */
  lemma LoginThenVerify(s: AuthState, email: string, password: string, hashMatches: (string, string) -> bool,
                        drawn: nat, now: Time, later: Time, client: Client)
    requires drawn <= MaxCode
    requires later < now + CodeLifetime
    requires UniqueUserIds(s.users)
    requires Login(s, email, password, hashMatches, drawn, now, client).reply.Ok?
    ensures var step := Login(s, email, password, hashMatches, drawn, now, client);
            var session := Verify2FA(step.state, step.reply.value.userId, GenerateCode(drawn), later);
            && session.reply.Ok?
            && session.reply.value.token.userId == step.reply.value.userId
            && session.reply.value.user.roles == RoleNames(s.roles, UserByEmail(s.users, email).value.roleIds)
  {
    var u := UserByEmail(s.users, email).value;
    var step := Login(s, email, password, hashMatches, drawn, now, client);
    IssuedCodeVerifies(s.codes, u.id, LoginKind, drawn, now, later, client.ip, client.userAgent);
    var found := UserById(s.users, u.id);
    var a :| 0 <= a < |s.users| && s.users[a] == u;
    assert found.Some?;
    var b :| 0 <= b < |s.users| && s.users[b] == found.value;
    assert a == b;
  }

  /** verify2FA does not look at the active flag: deactivating the user after login does not stop the token. */
  lemma VerifyIgnoresActiveFlag(s: AuthState, i: nat, code: string, now: Time)
    requires i < |s.users|
    ensures var s' := s.(users := s.users[i := s.users[i].(active := false)]);
            Verify2FA(s, s.users[i].id, code, now).reply.Ok? <==> Verify2FA(s', s.users[i].id, code, now).reply.Ok?
  {
    var s' := s.(users := s.users[i := s.users[i].(active := false)]);
    var id := s.users[i].id;
    assert UserById(s.users, id).Some? by { assert s.users[i].id == id; }
    assert UserById(s'.users, id).Some? by { assert s'.users[i].id == id; }
  }

  /** Resend revokes the code that login issued (unless the new draw happens to repeat it). */
  lemma ResendRevokesLoginCode(s: AuthState, email: string, password: string, hashMatches: (string, string) -> bool,
                               drawn: nat, redrawn: nat, now: Time, later: Time, client: Client)
    requires drawn <= MaxCode && redrawn <= MaxCode && drawn != redrawn
    requires Login(s, email, password, hashMatches, drawn, now, client).reply.Ok?
    ensures var step := Login(s, email, password, hashMatches, drawn, now, client);
            var userId := step.reply.value.userId;
            var resent := Resend2FA(step.state, userId, redrawn, now, client);
            !Verify2FA(resent.state, userId, GenerateCode(drawn), later).reply.Ok?
  {
    var step := Login(s, email, password, hashMatches, drawn, now, client);
    var userId := step.reply.value.userId;
    GenerateCodeInjective(drawn, redrawn);
    ReissueRevokesOldCode(step.state.codes, userId, LoginKind, GenerateCode(drawn), redrawn, now, later, client.ip, client.userAgent);
  }
}

=== FILE: backfill.dfy ===
/**
  MigrateAiToolTypesToPivotSeeder: copy every tool's legacy type into the
  tool-type join table, ignoring rows that already exist.
*/
module Backfill {
  import opened Common
  import opened Schema
  import opened ToolCatalog

  /** The (tool, legacy type) pairs of the tools that have a legacy type. */
  function LegacyPairs(tools: seq<AiTool>): (p: Pivot)
    ensures forall t :: t in tools && t.legacyTypeId.Some? ==> (t.id, t.legacyTypeId.value) in p
    ensures forall q :: q in p ==> exists t :: t in tools && t.legacyTypeId == Some(q.1) && t.id == q.0
  {
    set t | t in tools && t.legacyTypeId.Some? :: (t.id, t.legacyTypeId.value)
  }

  /** The number of tools with a legacy type, which is what the seeder reports. */
  function LegacyTyped(tools: seq<AiTool>): (n: nat)
    ensures n <= |tools|
    ensures n == 0 <==> forall i :: 0 <= i < |tools| ==> tools[i].legacyTypeId.None?
  {
    if |tools| == 0 then 0
    else LegacyTyped(tools[..|tools| - 1]) + (if tools[|tools| - 1].legacyTypeId.Some? then 1 else 0)
  }

  /** The catalogue after the backfill: the join table gains the legacy pairs, nothing else changes. */
  function Backfilled(cat: Catalog): Catalog {
    cat.(toolTypes := cat.toolTypes + LegacyPairs(cat.tools))
  }

  /** The pair one tool contributes: its (tool, legacy type) pair, or nothing. */
  function PairOf(t: AiTool): Pivot {
    if t.legacyTypeId.Some? then {(t.id, t.legacyTypeId.value)} else {}
  }

  /** `run`: one `insertOrIgnore` per tool with a legacy type, in table order. */
  method Run(cat: Catalog) returns (r: Catalog, migrated: nat)
    ensures r == Backfilled(cat)
    ensures migrated == LegacyTyped(cat.tools)
  {
    var pivot := cat.toolTypes;
    migrated := 0;
    var i := 0;
    while i < |cat.tools|
      invariant 0 <= i <= |cat.tools|
      invariant pivot == cat.toolTypes + LegacyPairs(cat.tools[..i])
      invariant migrated == LegacyTyped(cat.tools[..i])
    {
      var t := cat.tools[i];
      PrefixStep(cat.toolTypes, cat.tools, i);
      // a tool without a legacy type is not selected and contributes the empty set
      pivot := pivot + PairOf(t);
      if t.legacyTypeId.Some? {
        migrated := migrated + 1;
      }
      i := i + 1;
    }
    assert cat.tools[..i] == cat.tools;
    r := cat.(toolTypes := pivot);
  }

  /** One more row of the table adds its pair to the join table and one to the count when it has a legacy type. */
  lemma PrefixStep(base: Pivot, tools: seq<AiTool>, i: nat)
    requires i < |tools|
    ensures base + LegacyPairs(tools[..i + 1]) == base + LegacyPairs(tools[..i]) + PairOf(tools[i])
    ensures LegacyTyped(tools[..i + 1]) == LegacyTyped(tools[..i]) + (if tools[i].legacyTypeId.Some? then 1 else 0)
  {
    assert tools[..i + 1] == tools[..i] + [tools[i]];
    LegacyPairsSnoc(tools[..i], tools[i]);
  }

  /** One more tool adds at most its own pair, and one to the count when it has a legacy type. */
  lemma LegacyPairsSnoc(tools: seq<AiTool>, t: AiTool)
    ensures LegacyPairs(tools + [t]) == LegacyPairs(tools) + PairOf(t)
    ensures LegacyTyped(tools + [t]) == LegacyTyped(tools) + (if t.legacyTypeId.Some? then 1 else 0)
  {
    assert (tools + [t])[..|tools|] == tools;
    assert forall u :: u in tools + [t] <==> u in tools || u == t;
  }

  // ---------------------------------------------------------------- properties

  /** Afterwards every legacy type is mirrored, and no existing row was removed. */
  lemma BackfillEstablishesLegacyInPivot(cat: Catalog)
    ensures LegacyInPivot(Backfilled(cat))
    ensures cat.toolTypes <= Backfilled(cat).toolTypes
  {
  }

  /** Rows are only added for tools with a legacy type, each pairing the tool with that type. */
  lemma BackfillAddsOnlyLegacyPairs(cat: Catalog, q: (nat, nat))
    requires q in Backfilled(cat).toolTypes && q !in cat.toolTypes
    ensures exists t :: t in cat.tools && t.id == q.0 && t.legacyTypeId == Some(q.1)
  {
  }

  /** Tools without a legacy type add nothing. */
  lemma NullLegacyAddsNothing(cat: Catalog)
    requires forall t :: t in cat.tools ==> t.legacyTypeId.None?
    ensures Backfilled(cat) == cat
  {
    assert LegacyPairs(cat.tools) == {};
  }

  /** Running the backfill twice leaves what one run left. */
  lemma BackfillIdempotent(cat: Catalog)
    ensures Backfilled(Backfilled(cat)) == Backfilled(cat)
  {
  }

  /**
    The reported number counts tools with a legacy type, not inserted rows: a
    second run inserts nothing yet reports the same number.
  */
  lemma ReportedNumberIsNotInsertedRows(cat: Catalog)
    ensures Backfilled(cat).toolTypes + LegacyPairs(Backfilled(cat).tools) == Backfilled(cat).toolTypes
    ensures LegacyTyped(Backfilled(cat).tools) == LegacyTyped(cat.tools)
  {
  }

  /** The backfill keeps a well-formed catalogue well formed. */
  lemma BackfillKeepsWellFormed(cat: Catalog)
    requires WellFormed(cat)
    ensures WellFormed(Backfilled(cat))
  {
  }

  /** After the backfill the type listing's counts are the many-to-many counts. */
  lemma BackfilledCountsArePivotCounts(cat: Catalog)
    ensures forall i :: 0 <= i < |cat.types| ==>
              TypesWithCounts(Backfilled(cat))[i].toolsCount
              == PivotCount(cat.tools, Backfilled(cat).toolTypes, cat.types[i].id)
  {
    BackfillEstablishesLegacyInPivot(cat);
    ReportedCountIsPivotCount(Backfilled(cat));
  }
}

=== FILE: cache_aside.dfy ===
/**
  CacheService: a read-through cache over a key -> (value, expiry) map, with
  every key namespaced by a fixed prefix, a default lifetime, and a fallback to
  the producer whenever the cache backend raises.
*/
module CacheAside {
  import opened Common

  const Prefix := "app_cache:"

  /** Seconds a remembered value lives when no lifetime is given. */
  const DefaultTtl: int := 3600

  datatype Entry<V> = Entry(value: V, expiresAt: int)

  /**
    How the cache backend behaves during one call: it answers, it raises on
    every operation, or it reads fine but raises on writes (put and forget).
  */
  datatype Fault = Healthy | Unavailable | WriteFails

  /**
    The outcome of `remember`: the new cache contents, the returned value (`None`
    when the producer's exception escapes) and how many times the producer ran.
  */
  datatype Remembered<V> = Remembered(store: map<string, Entry<V>>, value: Option<V>, producerCalls: nat)

  datatype Forgotten<V> = Forgotten(store: map<string, Entry<V>>, removed: bool)

  function CacheKey(key: string): (k: string)
    ensures |k| == |Prefix| + |key| && k[..|Prefix|] == Prefix && k[|Prefix|..] == key
  {
    Prefix + key
  }

  predicate Live<V>(store: map<string, Entry<V>>, k: string, now: int) {
    k in store && now < store[k].expiresAt
  }

  /** The store's `put`: a non-positive lifetime removes the key instead of storing. */
  function Put<V>(store: map<string, Entry<V>>, k: string, v: V, ttl: int, now: int): map<string, Entry<V>> {
    if ttl <= 0 then store - {k} else store[k := Entry(v, now + ttl)]
  }

  /**
    `remember(key, producer, ttl)`. The producer is deterministic within one call:
    `produced` is what it returns, or `None` when it throws.
  */
  function Remember<V>(store: map<string, Entry<V>>, key: string, ttl: Option<int>, produced: Option<V>,
                       fault: Fault, now: int): (r: Remembered<V>)
    ensures r.store - {CacheKey(key)} == store - {CacheKey(key)}
    ensures fault != Unavailable && Live(store, CacheKey(key), now)
            ==> r == Remembered(store, Some(store[CacheKey(key)].value), 0)
    ensures fault == Unavailable ==> r == Remembered(store, produced, 1)
    ensures fault == Healthy && !Live(store, CacheKey(key), now) && produced.Some?
            ==> && r.producerCalls == 1 && r.value == produced
                && (ttl.GetOr(DefaultTtl) > 0 ==> CacheKey(key) in r.store && r.store[CacheKey(key)] == Entry(produced.value, now + ttl.GetOr(DefaultTtl)))
    ensures fault != Unavailable && !Live(store, CacheKey(key), now) && (produced.None? || fault == WriteFails)
            ==> r == Remembered(store, produced, 2)
    ensures produced.Some? ==> r.value.Some?
  {
    var k := CacheKey(key);
    var lifetime := ttl.GetOr(DefaultTtl);
    if fault == Unavailable then Remembered(store, produced, 1)
    else if Live(store, k, now) then Remembered(store, Some(store[k].value), 0)
    else if produced.None? then
      // the producer's exception is caught by the fallback, which runs it again
      Remembered(store, None, 2)
    else if fault == WriteFails then
      // the producer ran, the write raised, the fallback runs the producer again
      Remembered(store, produced, 2)
    else Remembered(Put(store, k, produced.value, lifetime, now), produced, 1)
  }

  /** `forget(key)`: never raises; a failing backend answers false and leaves the store as it was. */
  function Forget<V>(store: map<string, Entry<V>>, key: string, fault: Fault): (r: Forgotten<V>)
    ensures fault != Healthy ==> r == Forgotten(store, false)
    ensures fault == Healthy ==> r.store == store - {CacheKey(key)} && (r.removed <==> CacheKey(key) in store)
  {
    if fault != Healthy then Forgotten(store, false)
    else Forgotten(store - {CacheKey(key)}, CacheKey(key) in store)
  }

  /** `forgetMultiple(keys)`: `forget` on each key in order. */
  function ForgetMultiple<V>(store: map<string, Entry<V>>, keys: seq<string>, fault: Fault): (r: map<string, Entry<V>>)
    ensures fault == Healthy ==> r == store - (set k | k in keys :: CacheKey(k))
    ensures fault != Healthy ==> r == store
  {
    if |keys| == 0 then store
    else
      var rest := ForgetMultiple(Forget(store, keys[0], fault).store, keys[1..], fault);
      assert (set k | k in keys :: CacheKey(k)) == {CacheKey(keys[0])} + (set k | k in keys[1..] :: CacheKey(k)) by {
        assert forall k :: k in keys <==> k == keys[0] || k in keys[1..];
      }
      rest
  }

  // ---------------------------------------------------------------- properties

  /** Two `remember` calls within the lifetime run the producer once and return the same value. */
  lemma RememberTwiceProducesOnce<V>(store: map<string, Entry<V>>, key: string, ttl: Option<int>,
                                     first: V, second: Option<V>, now: int, later: int)
    requires !Live(store, CacheKey(key), now)
    requires now <= later < now + ttl.GetOr(DefaultTtl)
    ensures var r1 := Remember(store, key, ttl, Some(first), Healthy, now);
            var r2 := Remember(r1.store, key, ttl, second, Healthy, later);
            && r1.producerCalls + r2.producerCalls == 1
            && r2.value == r1.value == Some(first)
  {
  }

  /** After `forget(key)` the next `remember(key)` runs the producer again. */
  lemma ForgetForcesRecompute<V>(store: map<string, Entry<V>>, key: string, ttl: Option<int>, produced: V, now: int)
    ensures var r := Remember(Forget(store, key, Healthy).store, key, ttl, Some(produced), Healthy, now);
            r.producerCalls == 1 && r.value == Some(produced)
  {
  }

  /** The prefix keeps cache keys injective: distinct application keys never share an entry. */
  lemma CacheKeyInjective(a: string, b: string)
    ensures CacheKey(a) == CacheKey(b) <==> a == b
  {
    if CacheKey(a) == CacheKey(b) {
      assert a == CacheKey(a)[|Prefix|..];
    }
  }
}

=== FILE: catalog.dfy ===
/**
  The tool catalogue (types, tools, roles and the two tool join tables) and the
  per-type tool count that AiToolsTypeController reports: the larger of the
  legacy one-to-many count and the many-to-many count.
*/
module ToolCatalog {
  import opened Common
  import opened Schema

  datatype Catalog = Catalog(
    types: seq<AiToolsType>,
    tools: seq<AiTool>,
    roles: seq<Role>,
    toolTypes: Pivot,   // ai_tool_ai_tools_type
    toolRoles: Pivot,   // ai_tool_role
    nextTypeId: nat,
    nextToolId: nat)

  /** One entry of the type listing. */
  datatype TypeCount = TypeCount(id: nat, name: string, description: Option<string>, toolsCount: nat)

  /** Ids are allocated by counters, and every reference points below them. */
  ghost predicate WellFormed(cat: Catalog) {
    && (forall ty :: ty in cat.types ==> ty.id < cat.nextTypeId)
    && (forall t :: t in cat.tools ==> t.id < cat.nextToolId)
    && DistinctIds(cat.tools)
    && (forall t :: t in cat.tools && t.legacyTypeId.Some? ==> t.legacyTypeId.value < cat.nextTypeId)
    && (forall p :: p in cat.toolTypes ==> p.0 < cat.nextToolId && p.1 < cat.nextTypeId)
    && (forall p :: p in cat.toolRoles ==> p.0 < cat.nextToolId)
  }

  /** No two tool rows share an id (the primary key). */
  predicate DistinctIds(tools: seq<AiTool>) {
    forall i, j :: 0 <= i < j < |tools| ==> tools[i].id != tools[j].id
  }

  /** The migration's target shape: every tool's legacy type is also in its many-to-many type set. */
  ghost predicate LegacyInPivot(cat: Catalog) {
    forall t :: t in cat.tools && t.legacyTypeId.Some? ==> (t.id, t.legacyTypeId.value) in cat.toolTypes
  }

  /** `ai_tools_count`: tools whose legacy column names the type. */
  function LegacyCount(tools: seq<AiTool>, typeId: nat): (n: nat)
    ensures n <= |tools|
  {
    if |tools| == 0 then 0
    else (if tools[0].legacyTypeId == Some(typeId) then 1 else 0) + LegacyCount(tools[1..], typeId)
  }

  /** `ai_tools_many_count`: tools joined to the type through the pivot table. */
  function PivotCount(tools: seq<AiTool>, toolTypes: Pivot, typeId: nat): (n: nat)
    ensures n <= |tools|
  {
    if |tools| == 0 then 0
    else (if (tools[0].id, typeId) in toolTypes then 1 else 0) + PivotCount(tools[1..], toolTypes, typeId)
  }

  /** The mapped entry for one type: the larger of the two counts. */
  function CountFor(cat: Catalog, ty: AiToolsType): (c: TypeCount)
    ensures c.id == ty.id && c.name == ty.name && c.description == ty.description
    ensures c.toolsCount >= LegacyCount(cat.tools, ty.id) && c.toolsCount >= PivotCount(cat.tools, cat.toolTypes, ty.id)
    ensures c.toolsCount == LegacyCount(cat.tools, ty.id) || c.toolsCount == PivotCount(cat.tools, cat.toolTypes, ty.id)
  {
    TypeCount(ty.id, ty.name, ty.description,
              Max(LegacyCount(cat.tools, ty.id), PivotCount(cat.tools, cat.toolTypes, ty.id)))
  }

  function CountsOf(cat: Catalog, types: seq<AiToolsType>): (r: seq<TypeCount>)
    ensures |r| == |types|
    ensures forall i :: 0 <= i < |r| ==> r[i] == CountFor(cat, types[i])
  {
    if |types| == 0 then [] else [CountFor(cat, types[0])] + CountsOf(cat, types[1..])
  }

  /** The producer of the type listing: one entry per type, in table order. */
  function TypesWithCounts(cat: Catalog): (r: seq<TypeCount>)
    ensures |r| == |cat.types|
    ensures forall i :: 0 <= i < |r| ==> && r[i].id == cat.types[i].id
                                         && r[i].name == cat.types[i].name
                                         && r[i].description == cat.types[i].description
    ensures forall i :: 0 <= i < |r| ==> r[i].toolsCount == Max(LegacyCount(cat.tools, cat.types[i].id),
                                                                PivotCount(cat.tools, cat.toolTypes, cat.types[i].id))
  {
    CountsOf(cat, cat.types)
  }

  // ---------------------------------------------------------------- properties

  /** When every legacy type is mirrored in the pivot, the legacy count never exceeds the pivot count. */
  lemma {:induction false} LegacyBoundedByPivot(tools: seq<AiTool>, toolTypes: Pivot, typeId: nat)
    requires forall t :: t in tools && t.legacyTypeId.Some? ==> (t.id, t.legacyTypeId.value) in toolTypes
    ensures LegacyCount(tools, typeId) <= PivotCount(tools, toolTypes, typeId)
    decreases |tools|
  {
    if |tools| > 0 {
      assert tools[0] in tools;
      assert forall t :: t in tools[1..] ==> t in tools;
      LegacyBoundedByPivot(tools[1..], toolTypes, typeId);
    }
  }

  /** So, on such a catalogue, the reported count is exactly the many-to-many count. */
  lemma ReportedCountIsPivotCount(cat: Catalog)
    requires LegacyInPivot(cat)
    ensures forall i :: 0 <= i < |cat.types| ==>
              TypesWithCounts(cat)[i].toolsCount == PivotCount(cat.tools, cat.toolTypes, cat.types[i].id)
  {
    forall i | 0 <= i < |cat.types|
      ensures TypesWithCounts(cat)[i].toolsCount == PivotCount(cat.tools, cat.toolTypes, cat.types[i].id)
    {
      LegacyBoundedByPivot(cat.tools, cat.toolTypes, cat.types[i].id);
    }
  }

  lemma {:induction false} UnreferencedTypeCountsZero(tools: seq<AiTool>, toolTypes: Pivot, typeId: nat)
    requires forall t :: t in tools ==> t.legacyTypeId != Some(typeId) && (t.id, typeId) !in toolTypes
    ensures LegacyCount(tools, typeId) == 0 && PivotCount(tools, toolTypes, typeId) == 0
    decreases |tools|
  {
    if |tools| > 0 {
      assert tools[0] in tools;
      assert forall t :: t in tools[1..] ==> t in tools;
      UnreferencedTypeCountsZero(tools[1..], toolTypes, typeId);
    }
  }
}

=== FILE: client_roles.dfy ===
/**
  The browser-side role check `checkUserRole`: the stored user record is read,
  its `roles` (absent counts as empty) are compared with the requirement,
  which may be one role name or a list of them.
*/
module ClientRoles {
  import opened Common
  import opened RoleGate

  /** What the `user` entry of local storage holds. */
  datatype StoredUser =
    | Absent                           // no entry at all
    | Malformed                        // JSON.parse (or reading `roles`) throws
    | Parsed(roles: Option<seq<string>>)

  datatype Requirement = One(role: string) | AnyOf(roles: seq<string>)

  /** A single string requirement becomes a one-element list. */
  function AsList(req: Requirement): seq<string> {
    match req
    case One(r) => [r]
    case AnyOf(rs) => rs
  }

  /** `wanted.some(role => have.includes(role))`, scanning from the front. */
  function SomeIncluded(wanted: seq<string>, have: seq<string>): (b: bool)
    ensures b <==> exists r :: r in wanted && r in have
  {
    if |wanted| == 0 then false
    else if wanted[0] in have then true
    else
      assert forall r :: r in wanted <==> r == wanted[0] || r in wanted[1..];
      SomeIncluded(wanted[1..], have)
  }

  function CheckUserRole(stored: StoredUser, req: Requirement): (ok: bool)
    ensures ok ==> stored.Parsed?
    ensures stored.Parsed? ==> (ok <==> exists r :: r in AsList(req) && r in stored.roles.GetOr([]))
  {
    match stored
    case Absent => false
    case Malformed => false
    case Parsed(roles) => SomeIncluded(AsList(req), roles.GetOr([]))
  }

  // ---------------------------------------------------------------- properties

  /** The client check grants exactly what the server gate allows for the same role names. */
  lemma AgreesWithServerGate(userRoles: seq<string>, required: seq<string>)
    ensures CheckUserRole(Parsed(Some(userRoles)), AnyOf(required)) <==> Decide(Some(userRoles), required) == Allow
  {
    HoldsAnyAsSets(userRoles, required);
  }

  lemma SingleIsOneElementList(stored: StoredUser, role: string)
    ensures CheckUserRole(stored, One(role)) == CheckUserRole(stored, AnyOf([role]))
  {
  }

  /** A record without `roles`, an empty requirement list, a missing or unreadable entry: all refuse. */
  lemma RefusalCases(req: Requirement, stored: StoredUser)
    ensures !CheckUserRole(Parsed(None), req)
    ensures !CheckUserRole(stored, AnyOf([]))
    ensures !CheckUserRole(Absent, req) && !CheckUserRole(Malformed, req)
  {
  }
}

=== FILE: code_format.dfy ===
/**
  The textual form of a one-time code: a drawn integer in [0, 999999] written in
  decimal and left-padded with '0' to six characters (TwoFactorService::generateCode).
*/
module CodeFormat {

  const CodeLength: nat := 6
  const MaxCode: nat := 999999

  predicate IsDigit(c: char) {
    '0' <= c <= '9'
  }

  predicate AllDigits(s: string) {
    forall i :: 0 <= i < |s| ==> IsDigit(s[i])
  }

  function DigitChar(d: nat): (c: char)
    requires d < 10
    ensures IsDigit(c)
  {
    (('0' as int) + d) as char
  }

  function DigitValue(c: char): (d: nat)
    requires IsDigit(c)
    ensures d < 10
    ensures DigitChar(d) == c
  {
    (c as int) - ('0' as int)
  }

  function Pow10(k: nat): (p: nat)
    ensures p >= 1
  {
    if k == 0 then 1 else 10 * Pow10(k - 1)
  }

  /** PHP's `(string)` cast of a non-negative integer: decimal, no leading zeros. */
  function DecimalString(n: nat): (s: string)
    ensures 1 <= |s|
    ensures AllDigits(s)
    decreases n
  {
    if n < 10 then [DigitChar(n)] else DecimalString(n / 10) + [DigitChar(n % 10)]
  }

  /** `str_pad($s, $width, $pad, STR_PAD_LEFT)`: strings already that wide are unchanged. */
  function PadLeft(s: string, width: nat, pad: char): (r: string)
    ensures |r| == if |s| >= width then |s| else width
    ensures r[|r| - |s|..] == s
    ensures forall i :: 0 <= i < |r| - |s| ==> r[i] == pad
  {
    if |s| >= width then s else seq(width - |s|, _ => pad) + s
  }

  /** The value of a string of decimal digits, most significant first. */
  function ParseDigits(s: string): nat
    requires AllDigits(s)
  {
    if |s| == 0 then 0 else ParseDigits(s[..|s| - 1]) * 10 + DigitValue(s[|s| - 1])
  }

  /** `generateCode` with the random draw passed in. */
  function GenerateCode(drawn: nat): (code: string)
    requires drawn <= MaxCode
    ensures |code| == CodeLength
    ensures AllDigits(code)
    ensures ParseDigits(code) == drawn
  {
    var digits := DecimalString(drawn);
    DecimalLength(drawn, CodeLength);
    var code := PadLeft(digits, CodeLength, '0');
    assert code == code[..|code| - |digits|] + digits;
    ParseWithLeadingZeros(code[..|code| - |digits|], digits);
    ParseDecimal(drawn);
    code
  }

  lemma {:induction false} ParseDecimal(n: nat)
    ensures ParseDigits(DecimalString(n)) == n
    decreases n
  {
    if n >= 10 {
      var s := DecimalString(n);
      assert s[..|s| - 1] == DecimalString(n / 10);
      ParseDecimal(n / 10);
    }
  }

  lemma {:induction false} DecimalLength(n: nat, k: nat)
    requires 1 <= k
    requires n < Pow10(k)
    ensures |DecimalString(n)| <= k
    decreases n
  {
    if n >= 10 {
      assert k >= 2;
      DecimalLength(n / 10, k - 1);
    }
  }

  /** Parsing distributes over concatenation: the left part is shifted by the right part's width. */
  lemma {:induction false} ParseAppend(a: string, b: string)
    requires AllDigits(a) && AllDigits(b)
    ensures AllDigits(a + b)
    ensures ParseDigits(a + b) == ParseDigits(a) * Pow10(|b|) + ParseDigits(b)
    decreases |b|
  {
    if |b| > 0 {
      var ab := a + b;
      var b' := b[..|b| - 1];
      var last := DigitValue(b[|b| - 1]);
      assert ab[..|ab| - 1] == a + b';
      assert ab[|ab| - 1] == b[|b| - 1];
      ParseAppend(a, b');
      assert ParseDigits(ab) == ParseDigits(a + b') * 10 + last;
      assert ParseDigits(b) == ParseDigits(b') * 10 + last;
      assert Pow10(|b|) == Pow10(|b'|) * 10;
      ShiftDigit(ParseDigits(a), Pow10(|b'|), ParseDigits(b'), last);
    } else {
      assert a + b == a;
    }
  }

  lemma ShiftDigit(hi: nat, w: nat, lo: nat, d: nat)
    ensures (hi * w + lo) * 10 + d == hi * (w * 10) + (lo * 10 + d)
  {
  }

  lemma {:induction false} ParseZeros(z: string)
    requires forall i :: 0 <= i < |z| ==> z[i] == '0'
    ensures AllDigits(z)
    ensures ParseDigits(z) == 0
    decreases |z|
  {
    if |z| > 0 {
      ParseZeros(z[..|z| - 1]);
    }
  }

  /** Left zero padding does not change a digit string's value. */
  lemma ParseWithLeadingZeros(z: string, s: string)
    requires forall i :: 0 <= i < |z| ==> z[i] == '0'
    requires AllDigits(s)
    ensures AllDigits(z + s)
    ensures ParseDigits(z + s) == ParseDigits(s)
  {
    ParseZeros(z);
    ParseAppend(z, s);
  }

  /** Two different draws never produce the same code. */
  lemma GenerateCodeInjective(a: nat, b: nat)
    requires a <= MaxCode && b <= MaxCode
    ensures GenerateCode(a) == GenerateCode(b) <==> a == b
  {
  }

  /** Every six-digit string is the code of exactly one draw, so the draw range is exactly covered. */
  lemma {:induction false} ParseBound(s: string)
    requires AllDigits(s)
    ensures ParseDigits(s) < Pow10(|s|)
    decreases |s|
  {
    if |s| > 0 {
      ParseBound(s[..|s| - 1]);
    }
  }

  lemma CodesAreOnto(code: string)
    requires |code| == CodeLength && AllDigits(code)
    ensures ParseDigits(code) <= MaxCode
    ensures GenerateCode(ParseDigits(code)) == code
  {
    ParseBound(code);
    assert Pow10(CodeLength) == 1000000;
    var d := ParseDigits(code);
    var g := GenerateCode(d);
    SameWidthSameValue(g, code);
  }

  /** Equal-width digit strings with the same value are equal. */
  lemma {:induction false} SameWidthSameValue(a: string, b: string)
    requires |a| == |b| && AllDigits(a) && AllDigits(b)
    requires ParseDigits(a) == ParseDigits(b)
    ensures a == b
    decreases |a|
  {
    if |a| > 0 {
      var n := |a|;
      assert ParseDigits(a) % 10 == DigitValue(a[n - 1]);
      assert ParseDigits(b) % 10 == DigitValue(b[n - 1]);
      assert ParseDigits(a[..n - 1]) == ParseDigits(a) / 10;
      assert ParseDigits(b[..n - 1]) == ParseDigits(b) / 10;
      SameWidthSameValue(a[..n - 1], b[..n - 1]);
      assert a == a[..n - 1] + [a[n - 1]];
      assert b == b[..n - 1] + [b[n - 1]];
    }
  }
}

=== FILE: common.dfy ===
/** Small wrapper types shared by every component of the model. */
module Common {

  /** A value that may be absent: PHP's null, JavaScript's undefined. */
  datatype Option<T> = None | Some(value: T) {
    function GetOr(default: T): T {
      match this
      case Some(v) => v
      case None => default
    }
  }

  /** The outcome of a request handler: a reply or the error it raises. */
  datatype Result<T, E> = Ok(value: T) | Err(error: E)

  function Max(a: int, b: int): int {
    if a >= b then a else b
  }
}

=== FILE: role_gate.dfy ===
/**
  The `role:` middleware (CheckRole): 401 without a user, otherwise allow when
  at least one required role name is among the user's many-to-many role names,
  else 403 carrying both lists.
*/
module RoleGate {
  import opened Common
  import opened Schema

  datatype Decision =
    | Allow
    | Unauthenticated
    | Forbidden(requiredRoles: seq<string>, userRoles: seq<string>)

  /** OR semantics: some required role is held. */
  predicate HoldsAny(userRoles: seq<string>, required: seq<string>) {
    exists i :: 0 <= i < |required| && required[i] in userRoles
  }

  /** The decision for a caller given by its role names; `None` is a request without a user. */
  function Decide(caller: Option<seq<string>>, required: seq<string>): Decision {
    match caller
    case None => Unauthenticated
    case Some(userRoles) => if HoldsAny(userRoles, required) then Allow else Forbidden(required, userRoles)
  }

  /** The role names the middleware reads: only the role_user join, never the legacy role column. */
  function CallerRoles(user: Option<User>, roles: seq<Role>): Option<seq<string>> {
    match user
    case None => None
    case Some(u) => Some(RoleNames(roles, u.roleIds))
  }

  /** `handle`: the loop over the required roles stops at the first one the user holds. */
  method Handle(user: Option<User>, roles: seq<Role>, required: seq<string>) returns (d: Decision)
    ensures user.None? ==> d == Unauthenticated
    ensures user.Some? ==> (d == Allow <==> exists r :: r in required && r in RoleNames(roles, user.value.roleIds))
    ensures user.Some? && d != Allow ==> d == Forbidden(required, RoleNames(roles, user.value.roleIds))
    ensures d == Decide(CallerRoles(user, roles), required)
  {
    if user.None? {
      return Unauthenticated;
    }
    var userRoles := RoleNames(roles, user.value.roleIds);
    var hasRole := false;
    var i := 0;
    while i < |required| && !hasRole
      invariant 0 <= i <= |required|
      invariant !hasRole ==> forall j :: 0 <= j < i ==> required[j] !in userRoles
      invariant hasRole ==> 0 < i && required[i - 1] in userRoles
    {
      hasRole := required[i] in userRoles;
      i := i + 1;
    }
    if !hasRole {
      return Forbidden(required, userRoles);
    }
    return Allow;
  }

  // ---------------------------------------------------------------- properties

  lemma HoldsAnyAsSets(userRoles: seq<string>, required: seq<string>)
    ensures HoldsAny(userRoles, required) <==> exists r :: r in required && r in userRoles
  {
    if r :| r in required && r in userRoles {
      var i :| 0 <= i < |required| && required[i] == r;
    }
  }

  /** Without a user the answer is 401, whatever is required. */
  lemma NoUserIsUnauthenticated(required: seq<string>)
    ensures Decide(None, required) == Unauthenticated
  {
  }

  /** An empty requirement list forbids every authenticated user. */
  lemma EmptyRequirementForbids(userRoles: seq<string>)
    ensures Decide(Some(userRoles), []) == Forbidden([], userRoles)
  {
  }

  /** Holding more roles, or accepting more roles, never turns an allow into a deny. */
  lemma DecideMonotone(userRoles: seq<string>, moreRoles: seq<string>, required: seq<string>, moreRequired: seq<string>)
    requires forall r :: r in userRoles ==> r in moreRoles
    requires forall r :: r in required ==> r in moreRequired
    requires Decide(Some(userRoles), required) == Allow
    ensures Decide(Some(moreRoles), moreRequired) == Allow
  {
    HoldsAnyAsSets(userRoles, required);
    HoldsAnyAsSets(moreRoles, moreRequired);
  }

  /** The legacy single role never influences the gate. */
  lemma LegacyRoleIgnored(u: User, roles: seq<Role>, legacy: Option<nat>, required: seq<string>)
    ensures Decide(CallerRoles(Some(u), roles), required)
            == Decide(CallerRoles(Some(u.(legacyRoleId := legacy)), roles), required)
  {
  }
}

=== FILE: roles_controller.dfy ===
/**
  RoleController: the unfiltered role listing and role creation, whose
  validation keeps role names unique.
*/
module RolesController {
  import opened Common
  import opened Schema

  const MaxNameLength: nat := 255
  const MaxDescriptionLength: nat := 500

  /** The roles table and the next auto-increment id. */
  datatype RoleTable = RoleTable(roles: seq<Role>, nextId: nat)

  datatype Stored = Stored(table: RoleTable, reply: Result<Role, seq<(string, string)>>)

  ghost predicate UniqueNames(roles: seq<Role>) {
    forall i, j :: 0 <= i < j < |roles| ==> roles[i].name != roles[j].name
  }

  predicate NameTaken(roles: seq<Role>, name: string) {
    exists r :: r in roles && r.name == name
  }

  /** The validator's failures; every rule of a present field runs, so `max` and `unique` can both fail. */
  function Failures(roles: seq<Role>, name: string, description: string): (fs: seq<(string, string)>)
    ensures fs == [] <==> && 0 < |name| <= MaxNameLength && !NameTaken(roles, name)
                          && 0 < |description| <= MaxDescriptionLength
    ensures NameTaken(roles, name) && name != [] ==> ("name", "unique") in fs
  {
    var nameFailures :=
      if |name| == 0 then [("name", "required")]
      else ((if |name| > MaxNameLength then [("name", "max")] else [])
            + (if NameTaken(roles, name) then [("name", "unique")] else []));
    var descriptionFailures :=
      if |description| == 0 then [("description", "required")]
      else if |description| > MaxDescriptionLength then [("description", "max")]
      else [];
    nameFailures + descriptionFailures
  }

  /** `index`: every role. */
  function Index(t: RoleTable): seq<Role> {
    t.roles
  }

  /** `store`: validate, then append one role with the next id. */
  function Store(t: RoleTable, name: string, description: string): (r: Stored)
    ensures r.reply.Err? <==> || |name| == 0 || |name| > MaxNameLength || NameTaken(t.roles, name)
                              || |description| == 0 || |description| > MaxDescriptionLength
    ensures r.reply.Err? ==> r.table == t && r.reply.error != []
    ensures r.reply.Ok? ==> && r.reply.value == Role(t.nextId, name, description)
                            && r.table == RoleTable(t.roles + [r.reply.value], t.nextId + 1)
  {
    var fs := Failures(t.roles, name, description);
    if fs != [] then Stored(t, Err(fs))
    else
      var role := Role(t.nextId, name, description);
      Stored(RoleTable(t.roles + [role], t.nextId + 1), Ok(role))
  }

  // ---------------------------------------------------------------- properties

  /** Role names stay unique through `store`. */
  lemma StoreKeepsNamesUnique(t: RoleTable, name: string, description: string)
    requires UniqueNames(t.roles)
    ensures UniqueNames(Store(t, name, description).table.roles)
  {
    var r := Store(t, name, description);
    if r.reply.Ok? {
      var roles := r.table.roles;
      forall i, j | 0 <= i < j < |roles| ensures roles[i].name != roles[j].name {
        if j == |t.roles| {
          assert roles[i] in t.roles;
        }
      }
    }
  }

  /** Creating the same name twice: the second request is refused as not unique and writes nothing. */
  lemma SecondStoreOfANameFails(t: RoleTable, name: string, description: string, other: string)
    requires Store(t, name, description).reply.Ok?
    ensures var t' := Store(t, name, description).table;
            && Store(t', name, other).reply.Err?
            && ("name", "unique") in Store(t', name, other).reply.error
            && Store(t', name, other).table == t'
  {
    var t' := Store(t, name, description).table;
    assert t'.roles[|t.roles|] in t'.roles;
  }

  /** After a successful `store` the listing is the old listing followed by the new role. */
  lemma IndexAfterStore(t: RoleTable, name: string, description: string)
    requires Store(t, name, description).reply.Ok?
    ensures var r := Store(t, name, description);
            && Index(r.table)[..|Index(t)|] == Index(t)
            && Index(r.table)[|Index(t)|..] == [r.reply.value]
  {
  }
}

=== FILE: routes.dfy ===
/**
  The API route table as data: which endpoints sit behind Sanctum
  authentication and which role allow-list each one's `role:` middleware carries.
*/
module Routes {
  import opened Common
  import opened RoleGate

  datatype Verb = Get | Post | Put | Patch | Delete

  /**
    `authenticated`: declared inside the auth:sanctum group.
    `roles`: the arguments of the `role:` middleware, when the route has one.
  */
  datatype Route = Route(verb: Verb, path: string, authenticated: bool, roles: Option<seq<string>>)

  const Owner := "owner"
  const Frontend := "frontend"
  const Backend := "backend"

  const LoginRoute := Route(Post, "/login", false, None)
  const VerifyRoute := Route(Post, "/verify-2fa", false, None)
  const ResendRoute := Route(Post, "/resend-2fa", false, None)
  const ListTypesRoute := Route(Get, "/ai-tools-types", false, None)
  const LogoutRoute := Route(Post, "/logout", true, None)
  const MeRoute := Route(Get, "/me", true, None)
  const UserRoute := Route(Get, "/user", true, None)
  const StoreTypeRoute := Route(Post, "/ai-tools-types", true, Some([Owner]))
  const ClearCacheRoute := Route(Post, "/ai-tools-types/clear-cache", true, Some([Owner]))
  const ListUsersRoute := Route(Get, "/users", true, Some([Owner]))
  const StoreUserRoute := Route(Post, "/users", true, Some([Owner]))
  const UserStatusRoute := Route(Patch, "/users/{id}/status", true, Some([Owner]))
  const ListRolesRoute := Route(Get, "/roles", true, Some([Owner]))
  const StoreRoleRoute := Route(Post, "/roles", true, Some([Owner]))
  const ListToolsRoute := Route(Get, "/ai-tools", true, Some([Owner, Frontend, Backend]))
  const StoreToolRoute := Route(Post, "/ai-tools", true, Some([Owner, Backend]))
  const ShowToolRoute := Route(Get, "/ai-tools/{id}", true, Some([Owner, Frontend, Backend]))
  const UpdateToolRoute := Route(Put, "/ai-tools/{id}", true, Some([Owner, Backend]))
  const DeleteToolRoute := Route(Delete, "/ai-tools/{id}", true, Some([Owner]))

  /** Every route, in registration order. */
  const Table: seq<Route> := [
    LoginRoute, VerifyRoute, ResendRoute, ListTypesRoute,
    LogoutRoute, MeRoute, UserRoute,
    StoreTypeRoute, ClearCacheRoute,
    ListUsersRoute, StoreUserRoute, UserStatusRoute,
    ListRolesRoute, StoreRoleRoute,
    ListToolsRoute, StoreToolRoute, ShowToolRoute, UpdateToolRoute, DeleteToolRoute
  ]

  /** Admission of a caller (its role names, or None without a token): authentication first, then the role gate. */
  function Admit(route: Route, caller: Option<seq<string>>): (d: Decision)
    ensures !route.authenticated ==> d == Allow
    ensures route.authenticated && caller.None? ==> d == Unauthenticated
    ensures route.authenticated && caller.Some? && route.roles.Some?
            ==> (d == Allow <==> exists r :: r in route.roles.value && r in caller.value)
    ensures route.authenticated && caller.Some? && route.roles.None? ==> d == Allow
  {
    if !route.authenticated then Allow
    else if caller.None? then Unauthenticated
    else
      match route.roles
      case None => Allow
      case Some(required) =>
        HoldsAnyAsSets(caller.value, required);
        Decide(caller, required)
  }

  // ---------------------------------------------------------------- properties

  /** Logout, `me` and `user` admit every token holder, whatever roles they hold, and refuse a caller without a token. */
  lemma SessionRoutesAdmitTokenHolders(names: seq<string>)
    ensures forall r :: r in [LogoutRoute, MeRoute, UserRoute] ==>
              Admit(r, Some(names)) == Allow && Admit(r, None) == Unauthenticated
  {
  }

  /** Login, the two-factor endpoints and the type listing are open to anyone. */
  lemma PublicRoutesAdmitEveryone(caller: Option<seq<string>>)
    ensures Admit(LoginRoute, caller) == Allow
    ensures Admit(VerifyRoute, caller) == Allow
    ensures Admit(ResendRoute, caller) == Allow
    ensures Admit(ListTypesRoute, caller) == Allow
  {
  }

  /** Every role-gated route is also behind authentication. */
  lemma GatedRoutesAreAuthenticated()
    ensures forall i :: 0 <= i < |Table| && Table[i].roles.Some? ==> Table[i].authenticated
  {
  }

  /** Deleting a tool is for owners only. */
  lemma DeleteToolIsOwnerOnly(names: seq<string>)
    ensures Admit(DeleteToolRoute, Some(names)) == Allow <==> Owner in names
  {
  }

  /** Creating and updating a tool admit owner or backend, so a frontend-only user is refused. */
  lemma WriteToolIsOwnerOrBackend(names: seq<string>)
    ensures Admit(StoreToolRoute, Some(names)) == Allow <==> Owner in names || Backend in names
    ensures Admit(UpdateToolRoute, Some(names)) == Allow <==> Owner in names || Backend in names
    ensures Admit(StoreToolRoute, Some([Frontend])) == Forbidden([Owner, Backend], [Frontend])
  {
  }

  /** Reading tools admits any of the three roles. */
  lemma ReadToolAdmitsAllThreeRoles(names: seq<string>)
    ensures Admit(ListToolsRoute, Some(names)) == Allow
            <==> Owner in names || Frontend in names || Backend in names
    ensures Admit(ShowToolRoute, Some(names)) == Allow
            <==> Owner in names || Frontend in names || Backend in names
  {
  }

  /** The user, role and type-writing endpoints are owner-only. */
  lemma AdministrationIsOwnerOnly(names: seq<string>)
    ensures Admit(StoreTypeRoute, Some(names)) == Allow <==> Owner in names
    ensures Admit(ClearCacheRoute, Some(names)) == Allow <==> Owner in names
    ensures Admit(ListUsersRoute, Some(names)) == Allow <==> Owner in names
    ensures Admit(StoreUserRoute, Some(names)) == Allow <==> Owner in names
    ensures Admit(UserStatusRoute, Some(names)) == Allow <==> Owner in names
    ensures Admit(ListRolesRoute, Some(names)) == Allow <==> Owner in names
    ensures Admit(StoreRoleRoute, Some(names)) == Allow <==> Owner in names
  {
  }
}

=== FILE: schema.dfy ===
/**
  The persisted entities of the backend, as immutable records. Tables are
  sequences in row order; the two tool join tables are sets of
  (ai_tool_id, other_id) pairs, because both migrations declare the pair unique.
*/
module Schema {
  import opened Common

  datatype Role = Role(id: nat, name: string, description: string)

  /** `legacyRoleId` is the old single-role column; `roleIds` is the role_user join. */
  datatype User = User(
    id: nat,
    name: string,
    email: string,
    passwordHash: string,
    active: bool,
    legacyRoleId: Option<nat>,
    roleIds: seq<nat>)

  datatype AiToolsType = AiToolsType(id: nat, name: string, description: Option<string>)

  /** `legacyTypeId` is the nullable ai_tools_type_id column kept for backward compatibility. */
  datatype AiTool = AiTool(
    id: nat,
    name: string,
    link: string,
    documentation: Option<string>,
    description: string,
    usage: string,
    legacyTypeId: Option<nat>)

  /** A join table: unique (ai_tool_id, other_id) pairs. */
  type Pivot = set<(nat, nat)>

  /** The first role row with the given id, as `find` returns it. */
  function RoleById(roles: seq<Role>, id: nat): (r: Option<Role>)
    ensures r.Some? ==> r.value in roles && r.value.id == id
    ensures r.None? <==> forall i :: 0 <= i < |roles| ==> roles[i].id != id
  {
    if |roles| == 0 then None
    else if roles[0].id == id then Some(roles[0])
    else RoleById(roles[1..], id)
  }

  /** The names of the roles a list of role ids refers to, in the list's order. */
  function RoleNames(roles: seq<Role>, ids: seq<nat>): (names: seq<string>)
    ensures |names| <= |ids|
    ensures forall n :: n in names <==> exists i :: 0 <= i < |ids| && RoleById(roles, ids[i]).Some? && RoleById(roles, ids[i]).value.name == n
  {
    if |ids| == 0 then []
    else
      var rest := RoleNames(roles, ids[1..]);
      assert forall i :: 0 <= i < |ids[1..]| ==> ids[1..][i] == ids[i + 1];
      match RoleById(roles, ids[0])
      case Some(role) => [role.name] + rest
      case None => rest
  }

  /** The first user row with the given id. */
  function UserById(users: seq<User>, id: nat): (r: Option<User>)
    ensures r.Some? ==> r.value in users && r.value.id == id
    ensures r.None? <==> forall i :: 0 <= i < |users| ==> users[i].id != id
  {
    if |users| == 0 then None
    else if users[0].id == id then Some(users[0])
    else UserById(users[1..], id)
  }

  /** The first user row with the given e-mail address. */
  function UserByEmail(users: seq<User>, email: string): (r: Option<User>)
    ensures r.Some? ==> r.value in users && r.value.email == email
    ensures r.None? <==> forall i :: 0 <= i < |users| ==> users[i].email != email
  {
    if |users| == 0 then None
    else if users[0].email == email then Some(users[0])
    else UserByEmail(users[1..], email)
  }
}

=== FILE: tools_controller.dfy ===
/**
  AiToolController: the role-filtered listing, lookup, creation (attach),
  update (sync) and deletion (cascading to both join tables) of tools. Every
  successful write forgets the type listing's cache key.
*/
module ToolsController {
  import opened Common
  import opened Schema
  import opened ToolCatalog
  import opened CacheAside
  import opened TypesController
  import CodeFormat

  const OwnerRole := "owner"
  const MaxLength: nat := 255

  const TypeIdsField := "ai_tools_type_ids"
  const RoleIdsField := "role_ids"

  /** The request body of `store` and `update`, after the framework's input normalisation. */
  datatype ToolInput = ToolInput(
    name: string,
    link: string,
    documentation: Option<string>,
    description: string,
    usage: string,
    typeIds: seq<nat>,
    roleIds: seq<nat>)

  datatype ToolReply =
    | Listed(tools: seq<AiTool>)
    | Found(tool: AiTool)
    | Created(tool: AiTool)
    | Updated(tool: AiTool)
    | Deleted
    | NotFound
    | Invalid(failures: seq<Failure>)
    | ServerError   // an exception escaped after some rows were written

  function TypeIdSet(types: seq<AiToolsType>): set<nat> {
    set ty | ty in types :: ty.id
  }

  function RoleIdSet(roles: seq<Role>): set<nat> {
    set r | r in roles :: r.id
  }

  /** All rules of the request, stated directly; `isUrl` is the framework's URL rule. */
  predicate Acceptable(cat: Catalog, input: ToolInput, isUrl: string -> bool) {
    && 0 < |input.name| <= MaxLength
    && 0 < |input.link| <= MaxLength && isUrl(input.link)
    && (input.documentation.Some? ==> |input.documentation.value| <= MaxLength && isUrl(input.documentation.value))
    && 0 < |input.description|
    && 0 < |input.usage|
    && 0 < |input.typeIds| && (forall i :: 0 <= i < |input.typeIds| ==> input.typeIds[i] in TypeIdSet(cat.types))
    && 0 < |input.roleIds| && (forall i :: 0 <= i < |input.roleIds| ==> input.roleIds[i] in RoleIdSet(cat.roles))
  }

  // ---------------------------------------------------------------- validation

  function RequiredMax(field: string, value: string, max: nat): (fs: seq<Failure>)
    ensures fs == [] <==> 0 < |value| <= max
  {
    if |value| == 0 then [(field, "required")] else if |value| > max then [(field, "max")] else []
  }

  /** A `required` rule with no length bound. */
  function Required(field: string, value: string): (fs: seq<Failure>)
    ensures fs == [] <==> 0 < |value|
  {
    if |value| == 0 then [(field, "required")] else []
  }

  function UrlFailures(field: string, value: string, isUrl: string -> bool): (fs: seq<Failure>)
    ensures fs == [] <==> isUrl(value) && |value| <= MaxLength
  {
    (if isUrl(value) then [] else [(field, "url")]) + (if |value| > MaxLength then [(field, "max")] else [])
  }

  /** The `exists` rule on every element, keyed `field.index` as the validator reports it. */
  function UnknownIds(field: string, ids: seq<nat>, known: set<nat>, offset: nat): (fs: seq<Failure>)
    ensures fs == [] <==> forall i :: 0 <= i < |ids| ==> ids[i] in known
    ensures |fs| <= |ids|
  {
    if |ids| == 0 then []
    else
      var here := if ids[0] in known then [] else [(field + "." + CodeFormat.DecimalString(offset), "exists")];
      assert forall i :: 1 <= i < |ids| ==> ids[i] == ids[1..][i - 1];
      here + UnknownIds(field, ids[1..], known, offset + 1)
  }

  /** `required|array|min:1` (an empty list already fails `required`), then `exists` per element. */
  function IdListFailures(field: string, ids: seq<nat>, known: set<nat>): (fs: seq<Failure>)
    ensures fs == [] <==> 0 < |ids| && forall i :: 0 <= i < |ids| ==> ids[i] in known
  {
    if |ids| == 0 then [(field, "required")] else UnknownIds(field, ids, known, 0)
  }

  /** The validator's failures for a tool request, field by field in rule order. */
  function Violations(cat: Catalog, input: ToolInput, isUrl: string -> bool): (fs: seq<Failure>)
    ensures fs == [] <==> Acceptable(cat, input, isUrl)
  {
    var link := if |input.link| == 0 then [("link", "required")] else UrlFailures("link", input.link, isUrl);
    var documentation := match input.documentation
      case None => []
      case Some(d) => UrlFailures("documentation", d, isUrl);
    RequiredMax("name", input.name, MaxLength)
      + link
      + documentation
      + Required("description", input.description)
      + Required("usage", input.usage)
      + IdListFailures(TypeIdsField, input.typeIds, TypeIdSet(cat.types))
      + IdListFailures(RoleIdsField, input.roleIds, RoleIdSet(cat.roles))
  }

  // ---------------------------------------------------------------- relations

  /** The (tool, other) pairs for a list of ids; duplicates in the list collapse. */
  function Pairs(toolId: nat, ids: seq<nat>): (p: Pivot)
    ensures forall q :: q in p <==> q.0 == toolId && q.1 in ids
  {
    set x | x in ids :: (toolId, x)
  }

  /** `sync(ids)`: the tool's rows become exactly `ids`; rows of other tools stay. */
  function Sync(pivot: Pivot, toolId: nat, ids: seq<nat>): (r: Pivot)
    ensures forall q :: q in r <==> (q in pivot && q.0 != toolId) || (q.0 == toolId && q.1 in ids)
  {
    (set q | q in pivot && q.0 != toolId) + Pairs(toolId, ids)
  }

  /** Every row of the tool removed, as the cascading foreign key does. */
  function Detach(pivot: Pivot, toolId: nat): (r: Pivot)
    ensures forall q :: q in r <==> q in pivot && q.0 != toolId
  {
    set q | q in pivot && q.0 != toolId
  }

  predicate Distinct(ids: seq<nat>) {
    forall i, j :: 0 <= i < j < |ids| ==> ids[i] != ids[j]
  }

  /**
    `attach(ids)`: one insert of a row per list element. Under the unique pair
    index the whole insert fails when the list repeats an id or a row exists.
  */
  function Attach(pivot: Pivot, toolId: nat, ids: seq<nat>): (r: Option<Pivot>)
    ensures r.None? <==> !Distinct(ids) || exists x :: x in ids && (toolId, x) in pivot
    ensures r.Some? ==> forall q :: q in r.value <==> q in pivot || (q.0 == toolId && q.1 in ids)
  {
    if Distinct(ids) && forall x :: x in ids ==> (toolId, x) !in pivot then Some(pivot + Pairs(toolId, ids)) else None
  }

  /** Whether a tool has a role row for one of the given role ids. */
  predicate SharesRole(toolRoles: Pivot, t: AiTool, roleIds: set<nat>) {
    exists rid :: rid in roleIds && (t.id, rid) in toolRoles
  }

  /** The ids of the caller's existing roles (`roles()->pluck('roles.id')`). */
  function CallerRoleIds(cat: Catalog, user: User): set<nat> {
    set id | id in user.roleIds && RoleById(cat.roles, id).Some?
  }

  /** The tools, in table order, that carry one of the role ids. */
  function VisibleTools(tools: seq<AiTool>, toolRoles: Pivot, roleIds: set<nat>): (r: seq<AiTool>)
    ensures |r| <= |tools|
    ensures forall t :: t in r <==> t in tools && SharesRole(toolRoles, t, roleIds)
    ensures multiset(r) <= multiset(tools)
  {
    if |tools| == 0 then []
    else
      var rest := VisibleTools(tools[1..], toolRoles, roleIds);
      assert forall t :: t in tools <==> t == tools[0] || t in tools[1..];
      assert tools == [tools[0]] + tools[1..];
      if SharesRole(toolRoles, tools[0], roleIds) then [tools[0]] + rest else rest
  }

  /** Table order: one more row at the end of the table adds that row at the end of the list when it is visible. */
  lemma {:induction false} VisibleToolsSnoc(tools: seq<AiTool>, t: AiTool, toolRoles: Pivot, roleIds: set<nat>)
    ensures VisibleTools(tools + [t], toolRoles, roleIds)
            == VisibleTools(tools, toolRoles, roleIds) + (if SharesRole(toolRoles, t, roleIds) then [t] else [])
    decreases |tools|
  {
    if |tools| == 0 {
      assert (tools + [t])[1..] == [];
    } else {
      assert (tools + [t])[0] == tools[0];
      assert (tools + [t])[1..] == tools[1..] + [t];
      VisibleToolsSnoc(tools[1..], t, toolRoles, roleIds);
    }
  }

  /** The tool row with an id, as `find` returns it. */
  function ToolById(tools: seq<AiTool>, id: nat): (r: Option<AiTool>)
    ensures r.Some? ==> r.value in tools && r.value.id == id
    ensures r.None? <==> forall t :: t in tools ==> t.id != id
  {
    if |tools| == 0 then None
    else if tools[0].id == id then Some(tools[0])
    else
      assert forall t :: t in tools <==> t == tools[0] || t in tools[1..];
      ToolById(tools[1..], id)
  }

  /** The tool row a valid request writes: the legacy type is the first type id. */
  function FromInput(id: nat, input: ToolInput): AiTool
    requires 0 < |input.typeIds|
  {
    AiTool(id, input.name, input.link, input.documentation, input.description, input.usage, Some(input.typeIds[0]))
  }

  function ReplaceTool(tools: seq<AiTool>, id: nat, t: AiTool): (r: seq<AiTool>)
    ensures |r| == |tools|
    ensures forall x :: x in r ==> x in tools || x == t
    ensures forall i :: 0 <= i < |r| ==> r[i] == if tools[i].id == id then t else tools[i]
  {
    if |tools| == 0 then []
    else
      assert forall x :: x in tools[1..] ==> x in tools;
      [if tools[0].id == id then t else tools[0]] + ReplaceTool(tools[1..], id, t)
  }

  function RemoveTool(tools: seq<AiTool>, id: nat): (r: seq<AiTool>)
    ensures |r| <= |tools|
    ensures forall t :: t in r <==> t in tools && t.id != id
  {
    if |tools| == 0 then []
    else
      assert forall t :: t in tools <==> t == tools[0] || t in tools[1..];
      (if tools[0].id == id then [] else [tools[0]]) + RemoveTool(tools[1..], id)
  }

  // ---------------------------------------------------------------- actions

  /** `index`: owners see every tool; others see the tools sharing one of their roles. */
  function ListTools(cat: Catalog, user: User): (r: seq<AiTool>)
    ensures OwnerRole in RoleNames(cat.roles, user.roleIds) ==> r == cat.tools
    ensures OwnerRole !in RoleNames(cat.roles, user.roleIds) ==>
              forall t :: t in r <==> t in cat.tools && SharesRole(cat.toolRoles, t, CallerRoleIds(cat, user))
    ensures OwnerRole !in RoleNames(cat.roles, user.roleIds) && CallerRoleIds(cat, user) == {} ==> r == []
    ensures |r| <= |cat.tools|
    ensures multiset(r) <= multiset(cat.tools)
  {
    if OwnerRole in RoleNames(cat.roles, user.roleIds) then cat.tools
    else if CallerRoleIds(cat, user) == {} then []
    else VisibleTools(cat.tools, cat.toolRoles, CallerRoleIds(cat, user))
  }

  /** `show`: any existing tool, with no role filtering. */
  function Show(cat: Catalog, id: nat): (r: ToolReply)
    ensures r.Found? || r == NotFound
    ensures r.Found? <==> exists t :: t in cat.tools && t.id == id
    ensures r.Found? ==> r.tool in cat.tools && r.tool.id == id
  {
    match ToolById(cat.tools, id)
    case None => NotFound
    case Some(t) => Found(t)
  }

  /**
    `store`, with both join tables written from the id sets: the tool row, its
    type rows and its role rows, then the listing's cache key is forgotten.
  */
  function Store(app: App, input: ToolInput, isUrl: string -> bool, fault: Fault): (r: Served<ToolReply>)
    ensures r.reply.Invalid? <==> !Acceptable(app.catalog, input, isUrl)
    ensures r.reply.Invalid? ==> r.app == app
    ensures !r.reply.Invalid? ==>
              var cat := app.catalog;
              var id := cat.nextToolId;
              && r.reply.Created?
              && r.reply.tool.id == id && r.reply.tool.name == input.name && r.reply.tool.link == input.link
              && r.reply.tool.documentation == input.documentation
              && r.reply.tool.description == input.description && r.reply.tool.usage == input.usage
              && r.reply.tool.legacyTypeId == Some(input.typeIds[0])
              && r.app.catalog.tools == cat.tools + [r.reply.tool]
              && (forall q :: q in r.app.catalog.toolTypes <==> q in cat.toolTypes || (q.0 == id && q.1 in input.typeIds))
              && (forall q :: q in r.app.catalog.toolRoles <==> q in cat.toolRoles || (q.0 == id && q.1 in input.roleIds))
              && r.app.catalog.types == cat.types && r.app.catalog.roles == cat.roles
              && r.app.catalog.nextTypeId == cat.nextTypeId && r.app.catalog.nextToolId == id + 1
              && (fault == Healthy ==> r.app.cache == app.cache - {CacheKey(CountsKey)})
    ensures fault != Healthy ==> r.app.cache == app.cache
  {
    if Violations(app.catalog, input, isUrl) != [] then Served(app, Invalid(Violations(app.catalog, input, isUrl)))
    else
      var cat := app.catalog;
      var t := FromInput(cat.nextToolId, input);
      var cat' := cat.(tools := cat.tools + [t],
                       toolTypes := cat.toolTypes + Pairs(t.id, input.typeIds),
                       toolRoles := cat.toolRoles + Pairs(t.id, input.roleIds),
                       nextToolId := cat.nextToolId + 1);
      Served(App(cat', Forget(app.cache, CountsKey, fault).store), Created(t))
  }

  /**
    `store` as written: the raw id lists go to `attach`, outside a transaction,
    after the tool row is already inserted. A failing attach ends the request
    with an exception and leaves the rows written so far.
  */
  function StoreAsWritten(app: App, input: ToolInput, isUrl: string -> bool, fault: Fault): (r: Served<ToolReply>)
    ensures r.reply.Invalid? <==> !Acceptable(app.catalog, input, isUrl)
    ensures r.reply.Invalid? ==> r.app == app
    ensures r.reply.ServerError? ==> r.app.cache == app.cache && |r.app.catalog.tools| == |app.catalog.tools| + 1
    ensures r.reply.ServerError? ==>
              var cat := app.catalog;
              && r.app.catalog.tools == cat.tools + [FromInput(cat.nextToolId, input)]
              && r.app.catalog.nextToolId == cat.nextToolId + 1
              && (r.app.catalog.toolTypes == cat.toolTypes || r.app.catalog.toolTypes == cat.toolTypes + Pairs(cat.nextToolId, input.typeIds))
              && r.app.catalog.toolRoles == cat.toolRoles
              && r.app.catalog.types == cat.types && r.app.catalog.roles == cat.roles
              && r.app.catalog.nextTypeId == cat.nextTypeId
    ensures r.reply.Created? ==> r == Store(app, input, isUrl, fault)
    ensures r.reply.Invalid? || r.reply.ServerError? || r.reply.Created?
  {
    if Violations(app.catalog, input, isUrl) != [] then Served(app, Invalid(Violations(app.catalog, input, isUrl)))
    else
      var cat := app.catalog;
      var t := FromInput(cat.nextToolId, input);
      var withTool := cat.(tools := cat.tools + [t], nextToolId := cat.nextToolId + 1);
      match Attach(withTool.toolTypes, t.id, input.typeIds)
      case None => Served(app.(catalog := withTool), ServerError)
      case Some(toolTypes) =>
        var withTypes := withTool.(toolTypes := toolTypes);
        match Attach(withTypes.toolRoles, t.id, input.roleIds)
        case None => Served(app.(catalog := withTypes), ServerError)
        case Some(toolRoles) =>
          Served(App(withTypes.(toolRoles := toolRoles), Forget(app.cache, CountsKey, fault).store), Created(t))
  }

  /** `update`: 404 before validation; then the row is rewritten and both join tables synced. */
  function Update(app: App, id: nat, input: ToolInput, isUrl: string -> bool, fault: Fault): (r: Served<ToolReply>)
    ensures r.reply == NotFound <==> forall t :: t in app.catalog.tools ==> t.id != id
    ensures r.reply.Invalid? <==> (exists t :: t in app.catalog.tools && t.id == id) && !Acceptable(app.catalog, input, isUrl)
    ensures r.reply == NotFound || r.reply.Invalid? ==> r.app == app
    ensures r.reply.Updated? || r.reply == NotFound || r.reply.Invalid?
    ensures r.reply.Updated? ==>
              && r.reply.tool.id == id && r.reply.tool.legacyTypeId == Some(input.typeIds[0])
              && r.reply.tool.name == input.name && r.reply.tool.link == input.link
              && r.reply.tool.documentation == input.documentation
              && r.reply.tool.description == input.description && r.reply.tool.usage == input.usage
              && r.app.catalog.types == app.catalog.types && r.app.catalog.roles == app.catalog.roles
              && r.app.catalog.nextTypeId == app.catalog.nextTypeId && r.app.catalog.nextToolId == app.catalog.nextToolId
    ensures r.reply.Updated? && fault == Healthy ==> r.app.cache == app.cache - {CacheKey(CountsKey)}
    ensures fault != Healthy ==> r.app.cache == app.cache
  {
    if ToolById(app.catalog.tools, id).None? then Served(app, NotFound)
    else if Violations(app.catalog, input, isUrl) != [] then Served(app, Invalid(Violations(app.catalog, input, isUrl)))
    else Served(App(Rewrite(app.catalog, id, input), Forget(app.cache, CountsKey, fault).store), Updated(FromInput(id, input)))
  }

  /** The catalogue after a valid update of tool `id`: the row rewritten, both join tables synced. */
  function Rewrite(cat: Catalog, id: nat, input: ToolInput): Catalog
    requires 0 < |input.typeIds|
  {
    cat.(tools := ReplaceTool(cat.tools, id, FromInput(id, input)),
         toolTypes := Sync(cat.toolTypes, id, input.typeIds),
         toolRoles := Sync(cat.toolRoles, id, input.roleIds))
  }

  /** `destroy`: 404 when absent; otherwise the row goes and the cascade removes its join rows. */
  function Destroy(app: App, id: nat, fault: Fault): (r: Served<ToolReply>)
    ensures r.reply == NotFound <==> forall t :: t in app.catalog.tools ==> t.id != id
    ensures r.reply == NotFound ==> r.app == app
    ensures r.reply == Deleted || r.reply == NotFound
    ensures r.reply == Deleted ==>
              var cat := app.catalog;
              && (forall t :: t in r.app.catalog.tools <==> t in cat.tools && t.id != id)
              && (forall q :: q in r.app.catalog.toolTypes <==> q in cat.toolTypes && q.0 != id)
              && (forall q :: q in r.app.catalog.toolRoles <==> q in cat.toolRoles && q.0 != id)
              && r.app.catalog.types == cat.types && r.app.catalog.roles == cat.roles
              && r.app.catalog.nextTypeId == cat.nextTypeId && r.app.catalog.nextToolId == cat.nextToolId
              && (fault == Healthy ==> r.app.cache == app.cache - {CacheKey(CountsKey)})
    ensures fault != Healthy ==> r.app.cache == app.cache
  {
    if ToolById(app.catalog.tools, id).None? then Served(app, NotFound)
    else
      var cat := app.catalog;
      var cat' := cat.(tools := RemoveTool(cat.tools, id),
                       toolTypes := Detach(cat.toolTypes, id),
                       toolRoles := Detach(cat.toolRoles, id));
      Served(App(cat', Forget(app.cache, CountsKey, fault).store), Deleted)
  }

  // ---------------------------------------------------------------- properties

  /** `store` keeps the legacy type inside the pivot set and keeps the catalogue well formed. */
  lemma StoreKeepsInvariants(app: App, input: ToolInput, isUrl: string -> bool, fault: Fault)
    requires WellFormed(app.catalog) && LegacyInPivot(app.catalog)
    ensures WellFormed(Store(app, input, isUrl, fault).app.catalog)
    ensures LegacyInPivot(Store(app, input, isUrl, fault).app.catalog)
  {
    var r := Store(app, input, isUrl, fault);
    if r.reply.Created? {
      var cat := app.catalog;
      var cat' := r.app.catalog;
      assert input.typeIds[0] in input.typeIds;
      forall x | x in input.typeIds ensures x < cat.nextTypeId {
        var i :| 0 <= i < |input.typeIds| && input.typeIds[i] == x;
        assert x in TypeIdSet(cat.types);
      }
      forall i, j | 0 <= i < j < |cat'.tools| ensures cat'.tools[i].id != cat'.tools[j].id {
        if j == |cat.tools| {
          assert cat'.tools[i] in cat.tools;
        }
      }
      forall t | t in cat'.tools && t.legacyTypeId.Some?
        ensures (t.id, t.legacyTypeId.value) in cat'.toolTypes
      {
      }
    }
  }

  /**
    What a successful `update` writes: the row with the id is replaced in place
    by the reply's tool, every other row is kept, and both join tables hold
    exactly the given ids for the tool and the old rows of every other tool.
  */
  lemma UpdateRewritesCatalog(app: App, id: nat, input: ToolInput, isUrl: string -> bool, fault: Fault)
    requires (exists t :: t in app.catalog.tools && t.id == id) && Acceptable(app.catalog, input, isUrl)
    ensures var cat := app.catalog;
            var r := Update(app, id, input, isUrl, fault);
            && r.reply.Updated?
            && |r.app.catalog.tools| == |cat.tools|
            && (forall i :: 0 <= i < |cat.tools| ==>
                  r.app.catalog.tools[i] == if cat.tools[i].id == id then r.reply.tool else cat.tools[i])
            && (forall q :: q in r.app.catalog.toolTypes <==> (q in cat.toolTypes && q.0 != id) || (q.0 == id && q.1 in input.typeIds))
            && (forall q :: q in r.app.catalog.toolRoles <==> (q in cat.toolRoles && q.0 != id) || (q.0 == id && q.1 in input.roleIds))
  {
    UpdateWhenValid(app, id, input, isUrl, fault);
  }

  /** `update` keeps the catalogue well formed. */
  lemma UpdateKeepsWellFormed(app: App, id: nat, input: ToolInput, isUrl: string -> bool, fault: Fault)
    requires WellFormed(app.catalog)
    ensures WellFormed(Update(app, id, input, isUrl, fault).app.catalog)
  {
    if Update(app, id, input, isUrl, fault).reply.Updated? {
      UpdateWhenValid(app, id, input, isUrl, fault);
      var cat := app.catalog;
      assert Acceptable(cat, input, isUrl);
      forall x | x in input.typeIds ensures x < cat.nextTypeId {
        var i :| 0 <= i < |input.typeIds| && input.typeIds[i] == x;
        assert x in TypeIdSet(cat.types);
      }
      var t := FromInput(id, input);
      assert t.id < cat.nextToolId by {
        var prior := ToolById(cat.tools, id).value;
        assert prior in cat.tools;
      }
      assert input.typeIds[0] in input.typeIds;
      RewriteKeepsWellFormed(cat, Rewrite(cat, id, input), t, input.typeIds);
    }
  }

  lemma RewriteKeepsWellFormed(cat: Catalog, cat': Catalog, t: AiTool, typeIds: seq<nat>)
    requires WellFormed(cat)
    requires cat'.types == cat.types && cat'.nextTypeId == cat.nextTypeId && cat'.nextToolId == cat.nextToolId
    requires t.id < cat.nextToolId
    requires t.legacyTypeId.Some? ==> t.legacyTypeId.value < cat.nextTypeId
    requires forall x :: x in typeIds ==> x < cat.nextTypeId
    requires cat'.tools == ReplaceTool(cat.tools, t.id, t)
    requires forall q :: q in cat'.toolTypes ==> q in cat.toolTypes || (q.0 == t.id && q.1 in typeIds)
    requires forall q :: q in cat'.toolRoles ==> q in cat.toolRoles || q.0 == t.id
    ensures WellFormed(cat')
  {
    assert forall i :: 0 <= i < |cat'.tools| ==> cat'.tools[i].id == cat.tools[i].id;
    assert DistinctIds(cat'.tools);
    forall u | u in cat'.tools
      ensures u.id < cat'.nextToolId
      ensures u.legacyTypeId.Some? ==> u.legacyTypeId.value < cat'.nextTypeId
    {
      assert u in cat.tools || u == t;
    }
  }

  /** `update` keeps the legacy type inside the pivot set. */
  lemma UpdateKeepsLegacyInPivot(app: App, id: nat, input: ToolInput, isUrl: string -> bool, fault: Fault)
    requires LegacyInPivot(app.catalog)
    ensures LegacyInPivot(Update(app, id, input, isUrl, fault).app.catalog)
  {
    if Update(app, id, input, isUrl, fault).reply.Updated? {
      UpdateWhenValid(app, id, input, isUrl, fault);
      RewriteKeepsLegacyInPivot(app.catalog, id, input);
    }
  }

  lemma RewriteKeepsLegacyInPivot(cat: Catalog, id: nat, input: ToolInput)
    requires 0 < |input.typeIds|
    requires LegacyInPivot(cat)
    ensures LegacyInPivot(Rewrite(cat, id, input))
  {
    var cat' := Rewrite(cat, id, input);
    assert input.typeIds[0] in input.typeIds;
    forall t | t in cat'.tools && t.legacyTypeId.Some?
      ensures (t.id, t.legacyTypeId.value) in cat'.toolTypes
    {
      assert t in cat.tools || t == FromInput(id, input);
    }
  }

  /** `destroy` keeps the legacy type inside the pivot set and keeps the catalogue well formed. */
  lemma DestroyKeepsInvariants(app: App, id: nat, fault: Fault)
    requires WellFormed(app.catalog) && LegacyInPivot(app.catalog)
    ensures WellFormed(Destroy(app, id, fault).app.catalog)
    ensures LegacyInPivot(Destroy(app, id, fault).app.catalog)
  {
    var r := Destroy(app, id, fault);
    if r.reply == Deleted {
      var cat := app.catalog;
      assert r.app.catalog.tools == RemoveTool(cat.tools, id);
      RemovePreservesDistinctIds(cat.tools, id);
    }
  }

  lemma {:induction false} RemovePreservesDistinctIds(tools: seq<AiTool>, id: nat)
    requires DistinctIds(tools)
    ensures DistinctIds(RemoveTool(tools, id))
  {
    if |tools| > 0 {
      RemovePreservesDistinctIds(tools[1..], id);
      var rest := RemoveTool(tools[1..], id);
      HeadIdNotInTail(tools);
      var r := RemoveTool(tools, id);
      if tools[0].id != id {
        assert r == [tools[0]] + rest;
        ConsKeepsDistinctIds(tools[0], rest);
      } else {
        assert r == rest;
      }
    }
  }

  /** Under distinct ids the first row's id occurs nowhere in the rest. */
  lemma HeadIdNotInTail(tools: seq<AiTool>)
    requires DistinctIds(tools) && 0 < |tools|
    ensures forall t :: t in tools[1..] ==> t.id != tools[0].id
  {
    forall t | t in tools[1..] ensures t.id != tools[0].id {
      var k :| 0 <= k < |tools[1..]| && tools[1..][k] == t;
      assert tools[k + 1] == t;
    }
  }

  /** A row whose id is new keeps ids distinct when put in front. */
  lemma ConsKeepsDistinctIds(t: AiTool, rest: seq<AiTool>)
    requires DistinctIds(rest)
    requires forall u :: u in rest ==> u.id != t.id
    ensures DistinctIds([t] + rest)
  {
    var r := [t] + rest;
    forall i, j | 0 <= i < j < |r| ensures r[i].id != r[j].id {
      assert r[j] == rest[j - 1];
      if i == 0 {
        assert rest[j - 1] in rest;
      } else {
        assert r[i] == rest[i - 1];
      }
    }
  }

  /** Once the listing's key is gone, the next `index` recomputes it from the catalogue. */
  lemma ForgottenListingIsRecomputed(app: App, fault: Fault, now: int)
    requires CacheKey(CountsKey) !in app.cache
    ensures Index(app, fault, now).reply.data == TypesWithCounts(app.catalog)
  {
  }

  /**
    After a successful tool write on a healthy cache the next listing is
    recomputed from the written catalogue, and on a catalogue whose legacy types
    are mirrored in the pivot, every reported count is the many-to-many count.
  */
  lemma ListingAfterToolWrite(app: App, id: nat, input: ToolInput, isUrl: string -> bool, fault: Fault, now: int)
    requires WellFormed(app.catalog) && LegacyInPivot(app.catalog)
    ensures var s := Store(app, input, isUrl, Healthy);
            s.reply.Created? ==> ListingIsPivotCounts(s.app, fault, now)
    ensures var u := Update(app, id, input, isUrl, Healthy);
            u.reply.Updated? ==> ListingIsPivotCounts(u.app, fault, now)
    ensures var d := Destroy(app, id, Healthy);
            d.reply == Deleted ==> ListingIsPivotCounts(d.app, fault, now)
  {
    StoreKeepsInvariants(app, input, isUrl, Healthy);
    UpdateKeepsLegacyInPivot(app, id, input, isUrl, Healthy);
    DestroyKeepsInvariants(app, id, Healthy);
    ReportedCountIsPivotCount(Store(app, input, isUrl, Healthy).app.catalog);
    ReportedCountIsPivotCount(Update(app, id, input, isUrl, Healthy).app.catalog);
    ReportedCountIsPivotCount(Destroy(app, id, Healthy).app.catalog);
  }

  /** The listing `index` serves is the current one, and each count is the many-to-many count. */
  ghost predicate ListingIsPivotCounts(app: App, fault: Fault, now: int) {
    var data := Index(app, fault, now).reply.data;
    && data == TypesWithCounts(app.catalog)
    && forall i :: 0 <= i < |data| ==> data[i].toolsCount == PivotCount(app.catalog.tools, app.catalog.toolTypes, app.catalog.types[i].id)
  }

  /** A non-owner's listing is a subset of the catalogue, and `show` still returns tools hidden from it. */
  lemma ShowBypassesListing(cat: Catalog, user: User, t: AiTool)
    requires t in cat.tools && t !in ListTools(cat, user)
    ensures OwnerRole !in RoleNames(cat.roles, user.roleIds)
    ensures !SharesRole(cat.toolRoles, t, CallerRoleIds(cat, user))
    ensures Show(cat, t.id).Found?
  {
  }

  /**
    A non-owner's listing keeps table order: a tool row appended to the table
    joins the end of the listing exactly when it shares one of the caller's roles.
  */
  lemma ListToolsSnoc(cat: Catalog, t: AiTool, user: User)
    requires OwnerRole !in RoleNames(cat.roles, user.roleIds)
    ensures ListTools(cat.(tools := cat.tools + [t]), user)
            == ListTools(cat, user) + (if SharesRole(cat.toolRoles, t, CallerRoleIds(cat, user)) then [t] else [])
  {
    VisibleToolsSnoc(cat.tools, t, cat.toolRoles, CallerRoleIds(cat, user));
  }

  /** Repeating an `update` with the same request changes nothing more. */
  lemma UpdateIsIdempotent(app: App, id: nat, input: ToolInput, isUrl: string -> bool, fault: Fault)
    requires (exists t :: t in app.catalog.tools && t.id == id) && Acceptable(app.catalog, input, isUrl)
    ensures var once := Update(app, id, input, isUrl, fault);
            var twice := Update(once.app, id, input, isUrl, fault);
            once.reply.Updated? && twice.reply == once.reply && twice.app.catalog == once.app.catalog
  {
    var cat := app.catalog;
    var cat1 := Rewrite(cat, id, input);
    UpdateWhenValid(app, id, input, isUrl, fault);
    var once := Update(app, id, input, isUrl, fault);
    ReplaceToolKeepsId(cat.tools, id, FromInput(id, input));
    assert Violations(cat1, input, isUrl) == Violations(cat, input, isUrl) by {
      assert cat1.types == cat.types && cat1.roles == cat.roles;
    }
    UpdateWhenValid(once.app, id, input, isUrl, fault);
    RewriteTwice(cat, id, input);
  }

  /** A request for an existing tool that passes validation rewrites the catalogue. */
  lemma UpdateWhenValid(app: App, id: nat, input: ToolInput, isUrl: string -> bool, fault: Fault)
    requires (exists t :: t in app.catalog.tools && t.id == id) && Acceptable(app.catalog, input, isUrl)
    ensures ToolById(app.catalog.tools, id).Some? && Violations(app.catalog, input, isUrl) == []
    ensures Update(app, id, input, isUrl, fault)
            == Served(App(Rewrite(app.catalog, id, input), Forget(app.cache, CountsKey, fault).store), Updated(FromInput(id, input)))
  {
  }

  lemma RewriteTwice(cat: Catalog, id: nat, input: ToolInput)
    requires 0 < |input.typeIds|
    ensures Rewrite(Rewrite(cat, id, input), id, input) == Rewrite(cat, id, input)
  {
    ReplaceToolTwice(cat.tools, id, FromInput(id, input));
    SyncTwice(cat.toolTypes, id, input.typeIds);
    SyncTwice(cat.toolRoles, id, input.roleIds);
  }

  /** After replacing the row with an id, a row with that id is still there. */
  lemma ReplaceToolKeepsId(tools: seq<AiTool>, id: nat, t: AiTool)
    requires t.id == id
    requires exists x :: x in tools && x.id == id
    ensures ToolById(ReplaceTool(tools, id, t), id).Some?
  {
    var x :| x in tools && x.id == id;
    var i :| 0 <= i < |tools| && tools[i] == x;
    assert ReplaceTool(tools, id, t)[i] == t;
  }

  lemma ReplaceToolTwice(tools: seq<AiTool>, id: nat, t: AiTool)
    requires t.id == id
    ensures ReplaceTool(ReplaceTool(tools, id, t), id, t) == ReplaceTool(tools, id, t)
  {
    var once := ReplaceTool(tools, id, t);
    assert forall i :: 0 <= i < |once| ==> ReplaceTool(once, id, t)[i] == once[i];
  }

  lemma SyncTwice(pivot: Pivot, toolId: nat, ids: seq<nat>)
    ensures Sync(Sync(pivot, toolId, ids), toolId, ids) == Sync(pivot, toolId, ids)
  {
  }

  // ---------------------------------------------------------------- the attach finding

  /** With distinct id lists on a well-formed catalogue, `store` as written does what `Store` does. */
  lemma AsWrittenAgreesWhenDistinct(app: App, input: ToolInput, isUrl: string -> bool, fault: Fault)
    requires WellFormed(app.catalog)
    requires Distinct(input.typeIds) && Distinct(input.roleIds)
    ensures StoreAsWritten(app, input, isUrl, fault) == Store(app, input, isUrl, fault)
  {
    var r := Store(app, input, isUrl, fault);
    if r.reply.Created? {
      var w := StoreAsWritten(app, input, isUrl, fault);
      assert w.app.catalog.toolTypes == r.app.catalog.toolTypes;
      assert w.app.catalog.toolRoles == r.app.catalog.toolRoles;
    }
  }

  /**
    On a well-formed catalogue, `store` as written ends in a server error
    exactly when a valid request repeats a type id or a role id.
  */
  lemma AsWrittenFailsIff(app: App, input: ToolInput, isUrl: string -> bool, fault: Fault)
    requires WellFormed(app.catalog)
    ensures StoreAsWritten(app, input, isUrl, fault).reply.ServerError?
            <==> Acceptable(app.catalog, input, isUrl) && (!Distinct(input.typeIds) || !Distinct(input.roleIds))
  {
    if Acceptable(app.catalog, input, isUrl) && Distinct(input.typeIds) && Distinct(input.roleIds) {
      AsWrittenAgreesWhenDistinct(app, input, isUrl, fault);
    }
  }

  /**
    A request that passes validation with a repeated type id makes `store` as
    written fail after inserting the tool: the first attach writes nothing, so
    the tool keeps a legacy type that no pivot row mirrors.
  */
  lemma DuplicateTypeIdLeavesToolWithoutTypes(app: App, input: ToolInput, isUrl: string -> bool, fault: Fault)
    requires WellFormed(app.catalog)
    requires Acceptable(app.catalog, input, isUrl)
    requires !Distinct(input.typeIds)
    ensures var cat := app.catalog;
            var r := StoreAsWritten(app, input, isUrl, fault);
            && r.reply == ServerError
            && r.app == app.(catalog := cat.(tools := cat.tools + [FromInput(cat.nextToolId, input)],
                                             nextToolId := cat.nextToolId + 1))
            && !LegacyInPivot(r.app.catalog)
  {
    var r := StoreAsWritten(app, input, isUrl, fault);
    var t := FromInput(app.catalog.nextToolId, input);
    assert r.app.catalog.tools[|app.catalog.tools|] == t;
    assert (t.id, input.typeIds[0]) !in r.app.catalog.toolTypes;
  }

  /**
    With distinct type ids but a repeated role id, the type rows are written
    and the role attach fails: the tool has no role row, so no non-owner's
    listing shows it, although `show` still finds it.
  */
  lemma DuplicateRoleIdLeavesToolUnlisted(app: App, input: ToolInput, isUrl: string -> bool, fault: Fault, user: User)
    requires WellFormed(app.catalog)
    requires Acceptable(app.catalog, input, isUrl)
    requires Distinct(input.typeIds) && !Distinct(input.roleIds)
    ensures var cat := app.catalog;
            var t := FromInput(cat.nextToolId, input);
            var after := cat.(tools := cat.tools + [t],
                              toolTypes := cat.toolTypes + Pairs(t.id, input.typeIds),
                              nextToolId := cat.nextToolId + 1);
            var r := StoreAsWritten(app, input, isUrl, fault);
            && r.reply == ServerError
            && r.app == app.(catalog := after)
            && (LegacyInPivot(cat) ==> LegacyInPivot(after))
            && (OwnerRole !in RoleNames(cat.roles, user.roleIds) ==> t !in ListTools(after, user))
            && Show(after, t.id) == Found(t)
  {
    var cat := app.catalog;
    RoleAttachFailure(app, input, isUrl, fault);
    assert input.typeIds[0] in input.typeIds;
    NewToolWithoutRoles(cat, FromInput(cat.nextToolId, input), input.typeIds, user);
  }

  /**
    A catalogue that gains a tool row with a fresh id and type rows for it, but
    no role row: the tool is hidden from every non-owner, `show` finds it, and a
    legacy type among the type rows keeps the legacy-in-pivot invariant.
  */
  lemma NewToolWithoutRoles(cat: Catalog, t: AiTool, typeIds: seq<nat>, user: User)
    requires WellFormed(cat) && t.id == cat.nextToolId
    requires t.legacyTypeId.Some? ==> t.legacyTypeId.value in typeIds
    ensures var after := cat.(tools := cat.tools + [t], toolTypes := cat.toolTypes + Pairs(t.id, typeIds),
                              nextToolId := cat.nextToolId + 1);
            && (LegacyInPivot(cat) ==> LegacyInPivot(after))
            && (OwnerRole !in RoleNames(cat.roles, user.roleIds) ==> t !in ListTools(after, user))
            && Show(after, t.id) == Found(t)
  {
    var after := cat.(tools := cat.tools + [t], toolTypes := cat.toolTypes + Pairs(t.id, typeIds),
                      nextToolId := cat.nextToolId + 1);
    NoRoleRowHidesTool(after, t, user);
    assert ToolById(cat.tools, t.id).None?;
    ToolByIdSnoc(cat.tools, t);
  }

  /** The state a failing role attach leaves: the tool row and its type rows. */
  lemma RoleAttachFailure(app: App, input: ToolInput, isUrl: string -> bool, fault: Fault)
    requires WellFormed(app.catalog)
    requires Acceptable(app.catalog, input, isUrl)
    requires Distinct(input.typeIds) && !Distinct(input.roleIds)
    ensures var cat := app.catalog;
            var t := FromInput(cat.nextToolId, input);
            var r := StoreAsWritten(app, input, isUrl, fault);
            && r.reply == ServerError
            && r.app == app.(catalog := cat.(tools := cat.tools + [t],
                                             toolTypes := cat.toolTypes + Pairs(t.id, input.typeIds),
                                             nextToolId := cat.nextToolId + 1))
  {
    var cat := app.catalog;
    assert forall x :: x in input.typeIds ==> (cat.nextToolId, x) !in cat.toolTypes;
  }

  /** A tool without any role row is in no non-owner's listing. */
  lemma NoRoleRowHidesTool(cat: Catalog, t: AiTool, user: User)
    requires forall q :: q in cat.toolRoles ==> q.0 != t.id
    ensures OwnerRole !in RoleNames(cat.roles, user.roleIds) ==> t !in ListTools(cat, user)
  {
    assert !SharesRole(cat.toolRoles, t, CallerRoleIds(cat, user));
  }

  /** Looking up the id of a row appended with a fresh id finds that row. */
  lemma {:induction false} ToolByIdSnoc(tools: seq<AiTool>, t: AiTool)
    requires ToolById(tools, t.id).None?
    ensures ToolById(tools + [t], t.id) == Some(t)
    decreases |tools|
  {
    if |tools| > 0 {
      assert (tools + [t])[1..] == tools[1..] + [t];
      ToolByIdSnoc(tools[1..], t);
    }
  }

  /** The concrete request: type 3 listed twice, which `exists` accepts element by element. */
  lemma DuplicateTypeIdExample()
    ensures var cat := Catalog([AiToolsType(3, "Chatbots", None)], [], [Role(1, "owner", "Full access")], {}, {}, 4, 7);
            var input := ToolInput("Helper", "https://helper.example", None, "Answers questions", "Ask it", [3, 3], [1]);
            var r := StoreAsWritten(App(cat, map[]), input, _ => true, Healthy);
            && LegacyInPivot(cat)
            && r.reply == ServerError
            && r.app.catalog.tools == [FromInput(7, input)]
            && r.app.catalog.toolTypes == {}
            && !LegacyInPivot(r.app.catalog)
            && Store(App(cat, map[]), input, _ => true, Healthy).reply == Created(FromInput(7, input))
  {
    var cat := Catalog([AiToolsType(3, "Chatbots", None)], [], [Role(1, "owner", "Full access")], {}, {}, 4, 7);
    var input := ToolInput("Helper", "https://helper.example", None, "Answers questions", "Ask it", [3, 3], [1]);
    assert cat.types[0] in cat.types && cat.roles[0] in cat.roles;
    assert 3 in TypeIdSet(cat.types) && 1 in RoleIdSet(cat.roles);
    assert Acceptable(cat, input, _ => true);
    assert !Distinct(input.typeIds) by { assert input.typeIds[0] == input.typeIds[1]; }
    var r := StoreAsWritten(App(cat, map[]), input, _ => true, Healthy);
    assert (7, 3) !in r.app.catalog.toolTypes;
    assert FromInput(7, input) in r.app.catalog.tools;
  }
}

=== FILE: two_factor.dfy ===
/**
  The one-time-code lifecycle of TwoFactorService over an in-memory table of
  verification codes. The table is a sequence in insertion order, because
  `verifyCode` takes the FIRST matching row.
*/
module TwoFactor {
  import opened Common
  import opened VerificationCodes
  import opened CodeFormat

  /** Codes expire ten minutes after issue. */
  const CodeLifetime: int := 600

  /** The verification_codes table; `nextId` is the auto-increment counter. */
  datatype CodeStore = CodeStore(rows: seq<VerificationCode>, nextId: nat)

  datatype Issued = Issued(store: CodeStore, code: VerificationCode)
  datatype Verified = Verified(store: CodeStore, ok: bool)
  datatype Swept = Swept(store: CodeStore, deleted: nat)

  /** An unused code of the given user and purpose. */
  predicate Pending(c: VerificationCode, userId: nat, kind: string) {
    c.userId == userId && c.kind == kind && !c.used
  }

  /** The row `verifyCode` looks for: pending, with the submitted code. */
  predicate Matches(c: VerificationCode, userId: nat, code: string, kind: string) {
    Pending(c, userId, kind) && c.code == code
  }

  function PendingCount(rows: seq<VerificationCode>, userId: nat, kind: string): nat {
    if |rows| == 0 then 0
    else (if Pending(rows[0], userId, kind) then 1 else 0) + PendingCount(rows[1..], userId, kind)
  }

  /** The design invariant: at most one unused code per (user, purpose). */
  ghost predicate SinglePending(store: CodeStore) {
    forall u, k :: PendingCount(store.rows, u, k) <= 1
  }

  // ---------------------------------------------------------------- sendVerificationCode

  /** The `where(user).where(type).where(used, false)->delete()` step. */
  function DropPending(rows: seq<VerificationCode>, userId: nat, kind: string): (r: seq<VerificationCode>)
    ensures forall x :: x in r <==> x in rows && !Pending(x, userId, kind)
    ensures forall u, k :: PendingCount(r, u, k) == if u == userId && k == kind then 0 else PendingCount(rows, u, k)
  {
    if |rows| == 0 then []
    else
      var rest := DropPending(rows[1..], userId, kind);
      assert forall x :: x in rows <==> x == rows[0] || x in rows[1..];
      if Pending(rows[0], userId, kind) then rest
      else
        assert ([rows[0]] + rest)[1..] == rest;
        [rows[0]] + rest
  }

  /** `sendVerificationCode` without the mail: delete older unused codes, then insert a fresh one. */
  function SendVerificationCode(store: CodeStore, userId: nat, kind: string, drawn: nat, now: Time,
                                ip: Option<string>, userAgent: Option<string>): (r: Issued)
    requires drawn <= MaxCode
    ensures r.code.userId == userId && r.code.kind == kind && !r.code.used
    ensures r.code.expiresAt == now + CodeLifetime
    ensures |r.code.code| == CodeLength && AllDigits(r.code.code) && ParseDigits(r.code.code) == drawn
    ensures |r.store.rows| > 0 && r.store.rows[|r.store.rows| - 1] == r.code
    ensures PendingCount(r.store.rows, userId, kind) == 1
    ensures forall u, k :: !(u == userId && k == kind) ==> PendingCount(r.store.rows, u, k) == PendingCount(store.rows, u, k)
    ensures forall x :: x in store.rows && !Pending(x, userId, kind) ==> x in r.store.rows
    ensures forall x :: x in r.store.rows ==> x == r.code || (x in store.rows && !Pending(x, userId, kind))
    ensures SinglePending(store) ==> SinglePending(r.store)
  {
    var kept := DropPending(store.rows, userId, kind);
    var newCode := VerificationCode(store.nextId, userId, GenerateCode(drawn), kind, now + CodeLifetime, false, ip, userAgent);
    var rows := kept + [newCode];
    forall u, k ensures PendingCount(rows, u, k) == PendingCount(kept, u, k) + (if Pending(newCode, u, k) then 1 else 0) {
      PendingCountAppend(kept, newCode, u, k);
    }
    Issued(CodeStore(rows, store.nextId + 1), newCode)
  }

  // ---------------------------------------------------------------- verifyCode

  /** The index `->first()` returns, searching from `from`. */
  function FirstMatchFrom(rows: seq<VerificationCode>, from: nat, userId: nat, code: string, kind: string): (r: Option<nat>)
    requires from <= |rows|
    ensures r.Some? ==> from <= r.value < |rows| && Matches(rows[r.value], userId, code, kind)
    ensures r.Some? ==> forall j :: from <= j < r.value ==> !Matches(rows[j], userId, code, kind)
    ensures r.None? ==> forall j :: from <= j < |rows| ==> !Matches(rows[j], userId, code, kind)
    decreases |rows| - from
  {
    if from == |rows| then None
    else if Matches(rows[from], userId, code, kind) then Some(from)
    else FirstMatchFrom(rows, from + 1, userId, code, kind)
  }

  /** `verifyCode`: the first unused row matching (user, code, type); it must still be valid; it is then used up. */
  function VerifyCode(store: CodeStore, userId: nat, code: string, kind: string, now: Time): (r: Verified)
    ensures !r.ok ==> r.store == store
    ensures r.ok ==> exists i :: 0 <= i < |store.rows| && Matches(store.rows[i], userId, code, kind)
                                 && IsValid(store.rows[i], now)
                                 && r.store == store.(rows := store.rows[i := MarkAsUsed(store.rows[i])])
    ensures (forall i :: 0 <= i < |store.rows| ==> !(Matches(store.rows[i], userId, code, kind) && IsValid(store.rows[i], now))) ==> !r.ok
    ensures var f := FirstMatchFrom(store.rows, 0, userId, code, kind);
            && (r.ok <==> f.Some? && IsValid(store.rows[f.value], now))
            && (r.ok ==> r.store == store.(rows := store.rows[f.value := MarkAsUsed(store.rows[f.value])]))
  {
    match FirstMatchFrom(store.rows, 0, userId, code, kind)
    case None => Verified(store, false)
    case Some(i) =>
      if !IsValid(store.rows[i], now) then Verified(store, false)
      else Verified(store.(rows := store.rows[i := MarkAsUsed(store.rows[i])]), true)
  }

  // ---------------------------------------------------------------- cleanupExpiredCodes

  function ExpiredCount(rows: seq<VerificationCode>, now: Time): nat {
    if |rows| == 0 then 0
    else (if rows[0].expiresAt < now then 1 else 0) + ExpiredCount(rows[1..], now)
  }

  function DropExpired(rows: seq<VerificationCode>, now: Time): (r: seq<VerificationCode>)
    ensures forall x :: x in r <==> x in rows && now <= x.expiresAt
    ensures |r| + ExpiredCount(rows, now) == |rows|
    ensures forall u, k :: PendingCount(r, u, k) <= PendingCount(rows, u, k)
  {
    if |rows| == 0 then []
    else
      var rest := DropExpired(rows[1..], now);
      assert forall x :: x in rows <==> x == rows[0] || x in rows[1..];
      if rows[0].expiresAt < now then rest
      else
        assert ([rows[0]] + rest)[1..] == rest;
        [rows[0]] + rest
  }

  /** `cleanupExpiredCodes`: delete every row that expired before `now`, used or not, and report how many. */
  function CleanupExpiredCodes(store: CodeStore, now: Time): (r: Swept)
    ensures forall x :: x in r.store.rows <==> x in store.rows && now <= x.expiresAt
    ensures r.deleted == ExpiredCount(store.rows, now)
    ensures r.deleted + |r.store.rows| == |store.rows|
    ensures SinglePending(store) ==> SinglePending(r.store)
  {
    var kept := DropExpired(store.rows, now);
    Swept(store.(rows := kept), |store.rows| - |kept|)
  }

  // ---------------------------------------------------------------- counting lemmas

  lemma {:induction false} PendingCountAppend(rows: seq<VerificationCode>, c: VerificationCode, u: nat, k: string)
    ensures PendingCount(rows + [c], u, k) == PendingCount(rows, u, k) + (if Pending(c, u, k) then 1 else 0)
    decreases |rows|
  {
    if |rows| > 0 {
      assert (rows + [c])[1..] == rows[1..] + [c];
      PendingCountAppend(rows[1..], c, u, k);
    } else {
      assert ([c])[1..] == [];
    }
  }

  lemma {:induction false} PendingCountZero(rows: seq<VerificationCode>, u: nat, k: string)
    requires PendingCount(rows, u, k) == 0
    ensures forall i :: 0 <= i < |rows| ==> !Pending(rows[i], u, k)
    decreases |rows|
  {
    if |rows| > 0 {
      PendingCountZero(rows[1..], u, k);
      assert forall i :: 1 <= i < |rows| ==> rows[i] == rows[1..][i - 1];
    }
  }

  lemma {:induction false} PendingCountPositive(rows: seq<VerificationCode>, i: nat, u: nat, k: string)
    requires i < |rows| && Pending(rows[i], u, k)
    ensures PendingCount(rows, u, k) >= 1
    decreases |rows|
  {
    if i > 0 {
      PendingCountPositive(rows[1..], i - 1, u, k);
    }
  }

  /** Under the invariant, two pending rows of the same (user, purpose) are the same row. */
  lemma {:induction false} PendingUnique(rows: seq<VerificationCode>, i: nat, j: nat, u: nat, k: string)
    requires PendingCount(rows, u, k) <= 1
    requires i < |rows| && j < |rows|
    requires Pending(rows[i], u, k) && Pending(rows[j], u, k)
    ensures i == j
    decreases |rows|
  {
    if i > 0 && j > 0 {
      PendingUnique(rows[1..], i - 1, j - 1, u, k);
    } else if i == 0 && j > 0 {
      PendingCountPositive(rows[1..], j - 1, u, k);
    } else if j == 0 && i > 0 {
      PendingCountPositive(rows[1..], i - 1, u, k);
    }
  }

  /** Marking one row used lowers exactly the count of the (user, purpose) it was pending for. */
  lemma {:induction false} PendingCountMark(rows: seq<VerificationCode>, i: nat, u: nat, k: string)
    requires i < |rows|
    ensures PendingCount(rows[i := MarkAsUsed(rows[i])], u, k)
            == PendingCount(rows, u, k) - (if Pending(rows[i], u, k) then 1 else 0)
    decreases |rows|
  {
    var rows' := rows[i := MarkAsUsed(rows[i])];
    if i == 0 {
      assert rows'[1..] == rows[1..];
    } else {
      assert rows'[1..] == rows[1..][i - 1 := MarkAsUsed(rows[i])];
      PendingCountMark(rows[1..], i - 1, u, k);
    }
  }

  // ---------------------------------------------------------------- properties

  /** With at most one pending code per (user, purpose), verification succeeds exactly when a valid matching code exists. */
  lemma VerifySucceedsIff(store: CodeStore, userId: nat, code: string, kind: string, now: Time)
    requires SinglePending(store)
    ensures VerifyCode(store, userId, code, kind, now).ok
            <==> exists i :: 0 <= i < |store.rows| && Matches(store.rows[i], userId, code, kind) && IsValid(store.rows[i], now)
  {
    var rows := store.rows;
    if j :| 0 <= j < |rows| && Matches(rows[j], userId, code, kind) && IsValid(rows[j], now) {
      var first := FirstMatchFrom(rows, 0, userId, code, kind);
      assert first.Some?;
      assert PendingCount(rows, userId, kind) <= 1;
      PendingUnique(rows, first.value, j, userId, kind);
    }
  }

  /** Verification keeps the invariant. */
  lemma VerifyKeepsSinglePending(store: CodeStore, userId: nat, code: string, kind: string, now: Time)
    requires SinglePending(store)
    ensures SinglePending(VerifyCode(store, userId, code, kind, now).store)
  {
    var r := VerifyCode(store, userId, code, kind, now);
    if r.ok {
      var i :| 0 <= i < |store.rows| && Matches(store.rows[i], userId, code, kind) && IsValid(store.rows[i], now)
               && r.store == store.(rows := store.rows[i := MarkAsUsed(store.rows[i])]);
      forall u, k ensures PendingCount(r.store.rows, u, k) <= 1 {
        PendingCountMark(store.rows, i, u, k);
      }
    }
  }

  /** No replay: once a code has verified, the same submission fails immediately afterwards. */
  lemma NoReplay(store: CodeStore, userId: nat, code: string, kind: string, now: Time, later: Time)
    requires SinglePending(store)
    requires VerifyCode(store, userId, code, kind, now).ok
    ensures !VerifyCode(VerifyCode(store, userId, code, kind, now).store, userId, code, kind, later).ok
  {
    var r := VerifyCode(store, userId, code, kind, now);
    var i :| 0 <= i < |store.rows| && Matches(store.rows[i], userId, code, kind) && IsValid(store.rows[i], now)
             && r.store == store.(rows := store.rows[i := MarkAsUsed(store.rows[i])]);
    assert PendingCount(store.rows, userId, kind) <= 1;
    PendingCountMark(store.rows, i, userId, kind);
    PendingCountZero(r.store.rows, userId, kind);
  }

  /**
    Only the first matching row is consulted: when it has expired, a later
    matching row that is still valid does not rescue the verification.
  */
  lemma ExpiredFirstMatchHidesLaterCode(store: CodeStore, userId: nat, code: string, kind: string, now: Time, i: nat, j: nat)
    requires i < j < |store.rows|
    requires forall k :: 0 <= k < i ==> !Matches(store.rows[k], userId, code, kind)
    requires Matches(store.rows[i], userId, code, kind) && !IsValid(store.rows[i], now)
    requires Matches(store.rows[j], userId, code, kind) && IsValid(store.rows[j], now)
    ensures !VerifyCode(store, userId, code, kind, now).ok
    ensures VerifyCode(store, userId, code, kind, now).store == store
  {
    var f := FirstMatchFrom(store.rows, 0, userId, code, kind);
    assert f == Some(i);
  }

  /** Why the invariant matters: two identical unused rows would let one code verify twice. */
  lemma ReplayWithoutInvariant()
    ensures var c := VerificationCode(0, 1, "123456", "login", 600, false, None, None);
            var store := CodeStore([c, c], 1);
            && !SinglePending(store)
            && VerifyCode(store, 1, "123456", "login", 0).ok
            && VerifyCode(VerifyCode(store, 1, "123456", "login", 0).store, 1, "123456", "login", 0).ok
  {
    var c := VerificationCode(0, 1, "123456", "login", 600, false, None, None);
    var store := CodeStore([c, c], 1);
    assert PendingCount(store.rows, 1, "login") == 2 by {
      assert store.rows[1..] == [c];
      assert [c][1..] == [];
      assert PendingCount([c], 1, "login") == 1;
    }
    var r := VerifyCode(store, 1, "123456", "login", 0);
    assert r.store.rows == [MarkAsUsed(c), c];
  }

  /** After a fresh issue, the newly issued code is the one that verifies while it is valid. */
  lemma IssuedCodeVerifies(store: CodeStore, userId: nat, kind: string, drawn: nat, now: Time, later: Time,
                           ip: Option<string>, userAgent: Option<string>)
    requires drawn <= MaxCode
    requires later < now + CodeLifetime
    ensures var issued := SendVerificationCode(store, userId, kind, drawn, now, ip, userAgent);
            VerifyCode(issued.store, userId, issued.code.code, kind, later).ok
  {
    var issued := SendVerificationCode(store, userId, kind, drawn, now, ip, userAgent);
    var rows := issued.store.rows;
    var last := |rows| - 1;
    var first := FirstMatchFrom(rows, 0, userId, issued.code.code, kind);
    assert Matches(rows[last], userId, issued.code.code, kind);
    PendingUnique(rows, first.value, last, userId, kind);
  }

  /** Issuing a new code invalidates the previously pending one, unless the new draw repeats its digits. */
  lemma ReissueRevokesOldCode(store: CodeStore, userId: nat, kind: string, oldCode: string, drawn: nat,
                              now: Time, later: Time, ip: Option<string>, userAgent: Option<string>)
    requires drawn <= MaxCode
    requires GenerateCode(drawn) != oldCode
    ensures var issued := SendVerificationCode(store, userId, kind, drawn, now, ip, userAgent);
            !VerifyCode(issued.store, userId, oldCode, kind, later).ok
  {
    var issued := SendVerificationCode(store, userId, kind, drawn, now, ip, userAgent);
    var rows := issued.store.rows;
    forall i | 0 <= i < |rows| ensures !Matches(rows[i], userId, oldCode, kind) {
      assert rows[i] in rows;
    }
  }
}

=== FILE: types_controller.dfy ===
/**
  AiToolsTypeController: the cached type listing with tool counts, type
  creation, and the manual cache clear. The application state pairs the
  catalogue with the cache store that holds the listing.
*/
module TypesController {
  import opened Common
  import opened Schema
  import opened ToolCatalog
  import opened CacheAside

  /** The one cache key the listing is remembered under, and its lifetime in seconds. */
  const CountsKey := "ai_tools_types:with_counts"
  const CountsTtl: int := 3600

  const MaxNameLength: nat := 255

  type Counts = seq<TypeCount>

  datatype App = App(catalog: Catalog, cache: map<string, Entry<Counts>>)

  /** A reply and the state after the request. */
  datatype Served<T> = Served(app: App, reply: T)

  /** The listing's JSON body: the entries and the `cached` flag. */
  datatype Listing = Listing(data: Counts, cached: bool)

  /** A validation failure: the field and the rule it broke. */
  type Failure = (string, string)

  /** The cached listing, when present, is the listing of the current catalogue. */
  ghost predicate Coherent(app: App) {
    CacheKey(CountsKey) in app.cache ==> app.cache[CacheKey(CountsKey)].value == TypesWithCounts(app.catalog)
  }

  /** `index`: read the listing through the cache for an hour. */
  function Index(app: App, fault: Fault, now: int): (r: Served<Listing>)
    ensures r.reply.cached
    ensures r.app.catalog == app.catalog
    ensures r.app.cache - {CacheKey(CountsKey)} == app.cache - {CacheKey(CountsKey)}
    ensures fault != Unavailable && Live(app.cache, CacheKey(CountsKey), now)
            ==> r.app == app && r.reply.data == app.cache[CacheKey(CountsKey)].value
    ensures fault == Unavailable || !Live(app.cache, CacheKey(CountsKey), now)
            ==> r.reply.data == TypesWithCounts(app.catalog)
    ensures fault == Healthy && !Live(app.cache, CacheKey(CountsKey), now)
            ==> CacheKey(CountsKey) in r.app.cache
                && r.app.cache[CacheKey(CountsKey)] == Entry(TypesWithCounts(app.catalog), now + CountsTtl)
  {
    var rem := Remember(app.cache, CountsKey, Some(CountsTtl), Some(TypesWithCounts(app.catalog)), fault, now);
    Served(app.(cache := rem.store), Listing(rem.value.value, true))
  }

  function NameFailures(name: string): (fs: seq<Failure>)
    ensures fs == [] <==> 0 < |name| <= MaxNameLength
  {
    if |name| == 0 then [("name", "required")]
    else if |name| > MaxNameLength then [("name", "max")]
    else []
  }

  /** `store`: create the type, forget the listing, and report a zero tool count. */
  function StoreType(app: App, name: string, description: Option<string>, fault: Fault): (r: Served<Result<TypeCount, seq<Failure>>>)
    ensures r.reply.Err? <==> |name| == 0 || |name| > MaxNameLength
    ensures r.reply.Err? ==> r.app == app
    ensures r.reply.Ok? ==>
              && r.app.catalog == app.catalog.(types := app.catalog.types + [AiToolsType(app.catalog.nextTypeId, name, description)],
                                               nextTypeId := app.catalog.nextTypeId + 1)
              && r.reply.value == TypeCount(app.catalog.nextTypeId, name, description, 0)
              && (fault == Healthy ==> r.app.cache == app.cache - {CacheKey(CountsKey)})
    ensures fault != Healthy ==> r.app.cache == app.cache
  {
    var failures := NameFailures(name);
    if failures != [] then Served(app, Err(failures))
    else
      var id := app.catalog.nextTypeId;
      var catalog := app.catalog.(types := app.catalog.types + [AiToolsType(id, name, description)], nextTypeId := id + 1);
      Served(App(catalog, Forget(app.cache, CountsKey, fault).store), Ok(TypeCount(id, name, description, 0)))
  }

  /** `clearCache`: forget the listing and nothing else. */
  function ClearCache(app: App, fault: Fault): (r: Served<string>)
    ensures r.app.catalog == app.catalog
    ensures r.app.cache - {CacheKey(CountsKey)} == app.cache - {CacheKey(CountsKey)}
    ensures fault == Healthy ==> CacheKey(CountsKey) !in r.app.cache
    ensures fault != Healthy ==> r.app == app
  {
    Served(app.(cache := Forget(app.cache, CountsKey, fault).store), "Cache cleared successfully")
  }

  // ---------------------------------------------------------------- properties

  /** On a coherent state the listing is always the current one, and the state stays coherent. */
  lemma IndexIsFreshWhenCoherent(app: App, fault: Fault, now: int)
    requires Coherent(app)
    ensures Index(app, fault, now).reply.data == TypesWithCounts(app.catalog)
    ensures Coherent(Index(app, fault, now).app)
  {
  }

  /** Creating a type or clearing the cache on a healthy backend keeps the state coherent. */
  lemma HealthyWritesKeepCoherence(app: App, name: string, description: Option<string>)
    ensures Coherent(StoreType(app, name, description, Healthy).app) || StoreType(app, name, description, Healthy).reply.Err?
    ensures Coherent(ClearCache(app, Healthy).app)
  {
  }

  /** The zero count `store` reports is the count the listing will show for the new type. */
  lemma StoredTypeCountIsZero(app: App, name: string, description: Option<string>, fault: Fault)
    requires WellFormed(app.catalog)
    requires 0 < |name| <= MaxNameLength
    ensures var r := StoreType(app, name, description, fault);
            && WellFormed(r.app.catalog)
            && TypesWithCounts(r.app.catalog)[|app.catalog.types|] == r.reply.value
  {
    var cat := StoreType(app, name, description, fault).app.catalog;
    var id := app.catalog.nextTypeId;
    UnreferencedTypeCountsZero(cat.tools, cat.toolTypes, id);
    assert cat.types[|app.catalog.types|] == AiToolsType(id, name, description);
  }

  /**
    `forget` swallows backend errors, so a type created while writes fail stays
    invisible: the next hit still serves the listing cached before it.
  */
  lemma FailedForgetServesStaleListing(app: App, name: string, description: Option<string>, now: int)
    requires Coherent(app) && Live(app.cache, CacheKey(CountsKey), now)
    requires 0 < |name| <= MaxNameLength
    ensures var after := StoreType(app, name, description, WriteFails).app;
            && Index(after, Healthy, now).reply.data == TypesWithCounts(app.catalog)
            && |Index(after, Healthy, now).reply.data| + 1 == |TypesWithCounts(after.catalog)|
  {
  }
}

=== FILE: verification_code.dfy ===
/** One row of the verification_codes table and its two behaviours (VerificationCode model). */
module VerificationCodes {
  import opened Common

  /** Whole seconds on the server clock. */
  type Time = int

  datatype VerificationCode = VerificationCode(
    id: nat,
    userId: nat,
    code: string,
    kind: string,
    expiresAt: Time,
    used: bool,
    ipAddress: Option<string>,
    userAgent: Option<string>)

  /** `isValid`: unused and expiring strictly after `now` (Carbon's `isFuture` is strict). */
  predicate IsValid(c: VerificationCode, now: Time) {
    !c.used && now < c.expiresAt
  }

  /** `markAsUsed`: the row with its used flag set. */
  function MarkAsUsed(c: VerificationCode): (r: VerificationCode)
    ensures r.used
    ensures r.(used := c.used) == c
    ensures forall now :: !IsValid(r, now)
  {
    c.(used := true)
  }

  /** A used code is never valid, whatever its expiry. */
  lemma UsedNeverValid(c: VerificationCode, now: Time)
    requires c.used
    ensures !IsValid(c, now)
  {
  }

  /** At the instant of expiry the code is already invalid; one second earlier an unused code is valid. */
  lemma ExpiryIsExclusive(c: VerificationCode)
    requires !c.used
    ensures !IsValid(c, c.expiresAt)
    ensures IsValid(c, c.expiresAt - 1)
  {
  }

  lemma MarkAsUsedIdempotent(c: VerificationCode)
    ensures MarkAsUsed(MarkAsUsed(c)) == MarkAsUsed(c)
  {
  }
}
